=== FILE: README.md ===
# News sentiment vs. stock returns — a Dafny model of the rule logic

The repository is a batch pandas pipeline. For each ticker of a fixed list it
does the following:

- loads a price CSV and the shared analyst-ratings CSV;
- restricts both to their common date range;
- computes daily percentage returns from the close price;
- scores every headline with TextBlob and VADER, labels it, and aggregates the scores per date;
- inner-joins the daily sentiment with the returns on date;
- computes Pearson and Spearman correlations, and reports them with significance stars.

This project models the rule logic under those pandas calls, over plain immutable records:

- A table is a sequence of rows of cells (`Frames.Cell`: missing, a number, or text).
- Once its date column has been located, a table is a `Frames.Table`. Each of its `Record`s carries a date and the cells of the other columns.
- A date is a naive wall-clock timestamp in whole seconds. `DataLoader.Normalize` floors it to midnight, as `dt.normalize()` does.
- Prices and scores are `real`. A NaN or NaT is `Optional.None`.
- An exception is an `Optional.Failure`, or a skipped ticker (`None`) where `analyze_stock` catches it.

Modules follow the source files:

- `DataLoader` covers `scripts/data_loader.py`.
- `CorrelationCalculator` covers `scripts/correlation_calculator.py`.
- `SentimentAnalyzer` covers `scripts/sentiment_analyzer.py`.
- `Pipeline` covers `scripts/main.py`.
- `Frames`, `Strings`, `Seqs` and `Optional` hold the shared table model, ASCII case mapping and substring search, sequence filtering and sorting, and the option/result types.

The model treats these collaborators as parameters:

- the date parser (`Cell -> Option<int>`);
- the TextBlob and VADER scorers (`SentimentAnalyzer.Scorers`);
- scipy's `pearsonr` and `spearmanr` (`CorrelationCalculator.Stats`);
- the price file of each ticker (`string -> Option<Loaded>`, with None for a missing or unreadable file);
- whether a ticker's dashboard and results CSV were written without raising (`Pipeline.Env.outputsWritten`).

Observations the proofs made precise:

- **Alignment is not idempotent.** Re-filtering an aligned table to the same window changes nothing (`DataLoader.FilterToWindowIdempotent`). Re-aligning the aligned outputs, however, recomputes the window and can lose rows. With news on days {1, 5} and prices on days {3, 10}, the first alignment keeps news {5} and prices {3}. The second alignment keeps nothing (`DataLoader.AlignDatesNotIdempotent`).
- **Alignment with an empty side.** `max`/`min` in `align_dates` are Python builtins, and a comparison with NaT is always false. An empty news table therefore makes both outputs empty. An empty price table keeps the whole news table (`DataLoader.AlignDates`, `DataLoader.WindowCases`). Either way `analyze_stock` then skips the ticker.
- **N - 1 returns only with clean closes.** `pct_change` in pandas 2 forward-fills missing closes by default. A missing close after a present non-zero one therefore gets a return of 0, not NaN (`CorrelationCalculator.PctChangeMissingClose`). Every missing close in such a run gets 0 (`CorrelationCalculator.PctChangeMissingRun`), while a return before the first present close, or after a zero close, is NaN (`CorrelationCalculator.PctChangeNoPrior`, `CorrelationCalculator.PctChangeAfterZero`). "N prices give N - 1 returns" holds when every close is present and non-zero (`CorrelationCalculator.PctChangeAllPresent`).
- **Rendering failures skip the ticker.** A rendering failure is not isolated from the analysis. An exception in `create_dashboard` or `to_csv` reaches the `except` of `analyze_stock`, and the ticker is skipped (`Pipeline.AnalyzeStock` succeeds only when `outputsWritten` holds).
- **Sample standard deviation.** The daily aggregation uses pandas' default `std`, which is the sample deviation (ddof = 1), so a day with a single record has a NaN deviation. Standard deviations are not modelled (see below).

## Model

| member | source | states |
|---|---|---|
| `Strings.Contains` | scripts/data_loader.py:94 | Python's `key in name`: true exactly when the key occurs at some position of the name |
| `Frames.FindColumn` | scripts/data_loader.py:92-95 | the result is the position of the first column whose lower-cased name contains the key, and None exactly when no column does |
| `Frames.FirstMatchUnique` | scripts/correlation_calculator.py:56-57 | "first match, or None" has a single answer, so both column searches are fully determined |
| `Frames.Lookup` | scripts/main.py:27 | `name in df.columns`: None exactly when no column has that name, otherwise a position holding it |
| `DataLoader.FindDateColumn` | scripts/data_loader.py:92-95 | returns the first column, in column order, whose lower-cased name contains "date", and None when there is none |
| `DataLoader.LowerColumnsSameMatch` | scripts/data_loader.py:41 | lower-casing the header first does not change which columns the case-insensitive search matches |
| `DataLoader.LoadIgnoresCase` | scripts/data_loader.py:70 | two files whose headers agree up to case load to the same table |
| `DataLoader.LoadFindsCapitalisedDate` | scripts/data_loader.py:73-75 | a header "Date" is found as "date" and becomes the date column, and "Close" becomes "close" |
| `DataLoader.Load` | scripts/data_loader.py:40-52 | a date column exists exactly when some header contains "date" in any case; it is the first such; otherwise the frame is returned with lower-cased names only; every loaded date is at midnight |
| `DataLoader.ParseDates` | scripts/data_loader.py:47-52 | rows whose date does not parse are dropped; the number kept equals the number that parse; each kept record is some input row with its date normalised and the date cell removed |
| `DataLoader.ParseDatesConcat` | scripts/data_loader.py:76-77 | dropping unparseable rows keeps the relative order of the remaining rows |
| `DataLoader.Normalize` | scripts/data_loader.py:52 | the result is a midnight no later than the timestamp and less than a day before it |
| `DataLoader.NormalizeUnique` | scripts/data_loader.py:116-118 | that midnight is unique, so normalising an already normalised date changes nothing |
| `DataLoader.NormalizeRowsKeepsDays` | scripts/data_loader.py:116-118 | re-normalising loaded rows in `align_dates` alters no row |
| `DataLoader.MinDate` | scripts/data_loader.py:121 | `min()` of the date column: NaT exactly for an empty table, otherwise a date of some row that no row precedes |
| `DataLoader.MaxDate` | scripts/data_loader.py:122 | `max()` of the date column: NaT exactly for an empty table, otherwise a date of some row that no row follows |
| `DataLoader.CommonWindowSymmetric` | scripts/data_loader.py:121-122 | for two non-empty tables the window runs from the later of the two first dates to the earlier of the two last dates, whichever table comes first |
| `DataLoader.WindowCases` | scripts/data_loader.py:120-122 | with no news rows the start is NaT; with news but no price rows the window is the news range itself, because `max`/`min` keep their first argument against NaT; with both non-empty it is the intersection of the two ranges |
| `DataLoader.FilterToWindow` | scripts/data_loader.py:128-137 | columns are unchanged and every kept row lies in the window; each input row is kept exactly as often as it occurs when it lies in the window and not at all otherwise, so nothing is invented or duplicated |
| `DataLoader.FilterToWindowConcat` | scripts/data_loader.py:128-137 | selecting from two blocks of rows is selecting from each block, the first block's rows first: the selection keeps the input order |
| `DataLoader.FilterToWindowSingle` | scripts/data_loader.py:129-137 | a single row is kept exactly when its date lies in the closed window |
| `DataLoader.FilterToWindowIdempotent` | scripts/data_loader.py:129-137 | filtering again to the same window keeps every row |
| `DataLoader.AlignDates` | scripts/data_loader.py:97-143 | the outputs are two empty frames or keep the input columns, and hold only normalised input rows; no news rows empty both outputs; news but no price rows keep all news rows and no price rows; otherwise an empty intersection [later first date, earlier last date] empties both, and a non-empty one keeps from each side exactly the rows dated in it |
| `DataLoader.AlignDatesBounds` | scripts/data_loader.py:121-137 | for loaded non-empty tables, stated on the raw rows: an empty intersection of the two date ranges empties both outputs; otherwise each output keeps exactly its own rows dated in that intersection, unaltered and in order |
| `DataLoader.AlignDatesSymmetric` | scripts/data_loader.py:120-137 | swapping the two non-empty inputs swaps the two outputs |
| `DataLoader.AlignDatesExample` | scripts/data_loader.py:129-137 | news on days {1, 5} and prices on days {3, 10} align to news {5} and prices {3} |
| `DataLoader.AlignDatesDisjointExample` | scripts/data_loader.py:124-126 | news {5} and prices {3} have no overlap and align to two empty tables |
| `DataLoader.AlignDatesNotIdempotent` | scripts/data_loader.py:121-137 | aligning the aligned outputs of that example again loses the remaining rows |
| `CorrelationCalculator.FindCloseColumn` | scripts/correlation_calculator.py:54-57 | returns the first column whose lower-cased name contains "close", and None when there is none |
| `CorrelationCalculator.CloseValues` | scripts/correlation_calculator.py:18 | a close column holding text fails; otherwise each row yields its number, or NaN for a missing cell |
| `CorrelationCalculator.PadForward` | scripts/correlation_calculator.py:18 | present values are kept, each missing value repeats the one before it, and leading missing values stay missing |
| `CorrelationCalculator.Change` | scripts/correlation_calculator.py:18-19 | the change is (c - p) / p * 100; it is NaN exactly when either close is NaN or p is zero, never infinite |
| `CorrelationCalculator.PctChange` | scripts/correlation_calculator.py:18-19 | one return per close; the first is NaN; between present closes the return is (c[i] - c[i-1]) / c[i-1] * 100, and NaN exactly when the prior close is zero |
| `CorrelationCalculator.PctChangeMissingClose` | scripts/correlation_calculator.py:18 | under forward filling, a missing close after a present non-zero one has return 0 |
| `CorrelationCalculator.PctChangeAfterGap` | scripts/correlation_calculator.py:18 | a present close after a run of missing ones gets the percentage change from the last present close before the run |
| `CorrelationCalculator.PctChangeAllPresent` | scripts/correlation_calculator.py:18-19 | N present non-zero closes give exactly N - 1 non-missing returns |
| `CorrelationCalculator.PctChangeNoPrior` | scripts/correlation_calculator.py:18 | a return with no present close anywhere before it is NaN, even when its own close is present |
| `CorrelationCalculator.PctChangeAfterRun` | scripts/correlation_calculator.py:18-19 | once a close is present, the return at i is the change from the last present close before i to the close at i, or to that same last close when the close at i is missing |
| `CorrelationCalculator.PctChangeMissingRun` | scripts/correlation_calculator.py:18 | every missing close in a run after a present non-zero close has return 0, not only the first (100, NaN, NaN gives NaN, 0, 0) |
| `CorrelationCalculator.PctChangeAfterZero` | scripts/correlation_calculator.py:18-19 | after a zero close, the returns of the missing closes that follow and of the next present close are NaN |
| `CorrelationCalculator.PctChangeCharacterised` | scripts/correlation_calculator.py:18-19 | a return series equals `PctChange` exactly when it satisfies the position-by-position description of pad-filled changes (`IsPadChange`), which never builds the filled series |
| `CorrelationCalculator.PctChangeExample` | scripts/correlation_calculator.py:18 | closes 100, 102, 101, 105, 110 give NaN, 2, -100/102, 400/101, 500/105 |
| `CorrelationCalculator.AttachReturns` | scripts/correlation_calculator.py:18-19 | each row keeps its cells and gains its return; the returns are exactly the forward-filled percentage changes of the given closes, so the first is NaN and two numeric closes p, c give (c - p) / p * 100 |
| `CorrelationCalculator.DailyReturns` | scripts/correlation_calculator.py:9-24 | fails with the missing-close error exactly when no column name contains "close"; succeeds exactly when the first close-like column holds no text; on success the rows are a date-sorted permutation of the input and each return is the forward-filled percentage change of that column's values, taken in the sorted order |
| `CorrelationCalculator.DailyReturnsPadsMissingClose` | scripts/correlation_calculator.py:11-19 | in the returned table, a row whose close is missing right after a present non-zero close has return 0, not NaN |
| `CorrelationCalculator.PctChangeFlat` | scripts/correlation_calculator.py:18 | any rows whose returns are the forward-filled percentage changes of their closes read a missing close after a present non-zero one as a return of 0 |
| `CorrelationCalculator.PctChangeFollowsClose` | scripts/correlation_calculator.py:18-19 | rows whose returns are the forward-filled percentage changes of their closes have, between two numeric closes p and c, the return (c - p) / p * 100, and NaN exactly when p is zero |
| `CorrelationCalculator.DailyReturnsFollowClose` | scripts/correlation_calculator.py:9-19 | in the returned table the return between two consecutive numeric closes p and c is (c - p) / p * 100, and NaN exactly when p is zero |
| `CorrelationCalculator.ReturnsSucceed` | scripts/correlation_calculator.py:11-18 | sorting does not change whether the close column holds text, so the close values of the sorted rows are numeric exactly when those of the input are |
| `CorrelationCalculator.CalculateCorrelations` | scripts/correlation_calculator.py:26-52 | None exactly when fewer than 2 rows have polarity, return and compound; otherwise `total_days` is that number, the date range spans the earliest to the latest retained date, and a missing `positive_ratio` column gives (NaN, NaN); each of the five statistics is the given Pearson or Spearman function applied to the kept rows' sentiment column and their return column, in joined order (`CorrelatesComplete`) |
| `CorrelationCalculator.SummaryOf` | scripts/correlation_calculator.py:46-52 | `total_days` counts the rows left after dropping NaN, and `date_range` runs from the earliest to the latest of their dates, both dates being dates of such rows |
| `CorrelationCalculator.CorrelationsKeepCompleteRows` | scripts/correlation_calculator.py:28-48 | when every one of at least 2 rows is complete, a result exists, `total_days` is the row count, and the statistics see the whole polarity, compound and return columns |
| `CorrelationCalculator.CorrelationsIgnoreIncompleteRow` | scripts/correlation_calculator.py:28-52 | appending a row that lacks polarity, return or compound changes neither the statistics nor the summary |
| `CorrelationCalculator.Stars` | scripts/correlation_calculator.py:91 | "***" exactly for p < 0.001, "**" for 0.001 <= p < 0.01, "*" for 0.01 <= p < 0.05, and "" otherwise or for NaN |
| `CorrelationCalculator.StarsMonotone` | scripts/correlation_calculator.py:91 | a smaller p-value never earns fewer stars |
| `CorrelationCalculator.ReportRow` | scripts/correlation_calculator.py:85-92 | "Not available" exactly when the coefficient is NaN; otherwise the coefficient and p-value with the stars `Stars` assigns to that p-value |
| `CorrelationCalculator.PositiveRatioUnavailable` | scripts/correlation_calculator.py:41-44 | without a `positive_ratio` column its correlation is reported as "Not available", not as zero |
| `SentimentAnalyzer.AnalyzeSentiment` | scripts/sentiment_analyzer.py:15-35 | missing or empty text scores all zero; non-empty text gets the scorers' values; a numeric cell is scored as its string form; in-range scorers give in-range scores |
| `SentimentAnalyzer.Classify` | scripts/sentiment_analyzer.py:50-52 | positive exactly when polarity > 0.5, negative exactly when < 0.5, neutral exactly at 0.5 |
| `SentimentAnalyzer.AnalyzeDataframe` | scripts/sentiment_analyzer.py:37-57 | a missing headline column fails; otherwise one scored row per input row, the row itself unchanged, scored from its headline and labelled from its polarity |
| `SentimentAnalyzer.GroupSize` | scripts/sentiment_analyzer.py:61-62 | a date's group holds as many records as the date occurs in the input |
| `SentimentAnalyzer.Share` | scripts/sentiment_analyzer.py:64 | the share times the group size gives back the count, and a count of positives no larger than the group size gives a share in [0, 1] |
| `SentimentAnalyzer.Summarize` | scripts/sentiment_analyzer.py:61-65 | a date's aggregate: `article_count` is the date's number of records, `positive_ratio` is the positives over that number and lies in [0, 1], and the averages are the means of the group |
| `SentimentAnalyzer.AggregateDaily` | scripts/sentiment_analyzer.py:59-77 | one row per distinct input date, in strictly increasing date order, each the aggregate of its date's records |
| `SentimentAnalyzer.AggregateDailyDistinct` | scripts/sentiment_analyzer.py:61-62 | the aggregated rows have pairwise distinct dates, one row per date |
| `Pipeline.RowsFor` | scripts/main.py:28 | every kept row's stock cell upper-cases to the upper-cased ticker; each input row is kept exactly as often as it occurs when it matches and not at all otherwise |
| `Pipeline.RowsForConcat` | scripts/main.py:28 | the selection works row by row: two blocks are selected separately and kept in order, and a single row is kept exactly when it matches |
| `Pipeline.FilterRatings` | scripts/main.py:26-33 | without a stock column the table is unchanged; with one, the matching rows of the first stock column are kept, or all rows when none match |
| `Pipeline.JoinDay` | scripts/main.py:51 | one day's joined rows are exactly the combinations with the price rows of that date |
| `Pipeline.JoinDayOnePerRow` | scripts/main.py:51 | a sentiment day joins once with each price row of its date, in price-row order, and with nothing else |
| `Pipeline.JoinOnDate` | scripts/main.py:51 | a row is in the inner join exactly when it combines a sentiment day and a price row with equal dates |
| `Pipeline.JoinOnDateSize` | scripts/main.py:51-52 | with one sentiment row per date, the inner join has as many rows as there are price rows dated on some sentiment day |
| `Pipeline.AnalyzeStock` | scripts/main.py:8-77 | a missing price file skips the ticker; a success had dated inputs, computed returns and sentiment without error, and its joined table is the inner join of the daily sentiment with the returns; it has at least 5 joined days, carries the correlations of that table, and had its outputs written |
| `Pipeline.AnalyzeStockSucceeds` | scripts/main.py:38-73 | a ticker is analysed exactly when both aligned tables are non-empty, returns and sentiment are computed without error, the join has at least 5 rows and the outputs are written |
| `Pipeline.AnalyzeStockNeedsDates` | scripts/main.py:38 | ratings or prices without a date column skip the ticker: `align_dates` reads the `date` column and its error is caught |
| `Pipeline.AnalyzeStockSkipsEmptyAlignment` | scripts/main.py:38-41 | an empty aligned news or price table skips the ticker |
| `Pipeline.AnalyzeStockSkipsWithoutClose` | scripts/main.py:43-44 | a price table with no close-like column skips the ticker |
| `Pipeline.JoinDays` | scripts/main.py:51 | the date of every row of the inner join is the date of some sentiment day and of some priced row |
| `Pipeline.PricedRowIsAligned` | scripts/correlation_calculator.py:11 | sorting by date neither invents nor loses rows: each priced row is one of the aligned price rows |
| `Pipeline.JoinedDaysAligned` | scripts/main.py:44-51 | every day of the join of aggregated sentiment with returns is the date of an aligned news row and of an aligned price row |
| `Pipeline.RowIsShared` | scripts/data_loader.py:116-137 | every date of an aligned row is the normalised date of some row of the corresponding input table |
| `Pipeline.DateFromInput` | scripts/data_loader.py:116-137 | a date of a row drawn from the normalised input is the normalised date of some input row |
| `Pipeline.AnalyzeStockJoinsSharedDays` | scripts/main.py:38-51 | every day of a successful analysis's joined table is the day of some rating of the ticker and of some price row |
| `Pipeline.AnalyzeStockJoinSize` | scripts/main.py:44-54 | a successful analysis joins exactly as many rows as there are price rows dated on a sentiment day, and that number is at least 5 |
| `Pipeline.CollectResults` | scripts/main.py:99-102 | the kept tickers are, in order, exactly those whose analysis succeeded, each with its own analysis |
| `Pipeline.Run` | scripts/main.py:88-109 | the run aborts with None exactly when the ratings failed to load; otherwise it returns exactly the successful tickers of the fixed list, in order, with their analyses |

## Left out

- Reading CSV files, `os.path.exists`, finding the data folder, and writing the results CSV and PNG files are file-system I/O. A missing or unreadable price file is the `None` of the `stocks` parameter. A failed write is `outputsWritten`.
- `pd.to_datetime` and timezone stripping are the `parse` parameter. It returns a naive wall-clock timestamp in seconds or fails. The `dt.tz` branches of `align_dates` (lines 107-114) are therefore no-ops in the model.
- Duplicate column names are not modelled. They arise when lower-casing makes two headers equal, or when renaming a column to `date` collides with an existing `date` column. The model keeps one date per record.
- Merge suffixes (`_x`/`_y`) for price columns that share a name with a sentiment column are not modelled.
- Only the fields the correlations read are kept in a joined row. The other price columns are only written to the results CSV.
- Pearson and Spearman coefficients and p-values come from scipy. They are the `Stats` parameter.
- TextBlob and VADER are the `Scorers` parameter. VADER's positive/negative/neutral proportions are not modelled because nothing downstream reads them. `str()` of a numeric headline is the `render` parameter.
- SentimentAnalyzer.AggregateDaily: does not produce `std_polarity` or `std_vader_compound`, and does not round to four places (`.round(4)`). The means are exact reals rather than floats.
- Python's `str.lower`/`str.upper` are Unicode-aware. `Strings.Lower` and `Strings.Upper` map ASCII letters only.
- Pipeline.FilterRatings: applying `.str.upper()` to a stock column with no strings raises in pandas, so the source skips the ticker. The model instead treats such cells as never matching and falls back to all ratings.
- CorrelationCalculator.DailyReturns: promises only a date-sorted permutation of the rows, not their order among equal dates. `sort_values('date')` uses an unstable quicksort, and the model's stable sort is one of its possible outcomes.
- `pct_change` is modelled with the pandas 2 default fill method (forward fill). With `fill_method=None` a missing close would give NaN instead.
- CorrelationCalculator.CloseValues: fails whenever the close column holds any text. Dividing an object column in pandas skips pairs with a missing side, so the source raises only when a text close meets a present close before or after it once forward-filled. In the one case it does not raise (every close missing except a text close on the last row) the source keeps the ticker with all returns NaN, while the model skips it.
- Console output is not modelled, including `print_results`, the number formatting in `_print_correlation_row`, and the `date_range` string. The summary carries the first and last dates instead.
- `main` returns a Python dict keyed by ticker. The model returns the sequence of (ticker, analysis) pairs in insertion order; the tickers are distinct.
- The copies taken in `align_dates` and `analyze_stock`, and the in-place column additions of `analyze_dataframe`, need no model: every value is immutable.
- Plotting (`scripts/visualization.py`, `scripts/visualize.py`), `scripts/prepare_data.py` and `tests/test_data_loading.py` are not part of this model.

=== FILE: correlation_calculator.dfy ===
/** `CorrelationCalculator`: daily percentage returns from the close column,
    the gating and summary around the correlation statistics, and the
    significance tiers of the report. The Pearson and Spearman computations
    themselves are parameters. */
module CorrelationCalculator {
  import opened Optional
  import opened Frames
  import Seqs

  /** `_find_close_column`: the first column whose lower-cased name contains "close". */
  function FindCloseColumn(columns: seq<string>): (r: Option<nat>)
    ensures IsFirstMatch(columns, "close", r)
  {
    FindColumn(columns, "close")
  }

  /** A price row with its `daily_return` column; None stands for NaN. */
  datatype Priced = Priced(row: Record, dailyReturn: Option<real>)

  /** The exceptions `calculate_daily_returns` raises. */
  datatype ReturnError =
    | NoCloseColumn     // the ValueError for a missing close column
    | NonNumericClose   // the TypeError of dividing text

  function DateOf(r: Record): int {
    r.date
  }

  function RowsOf(ps: seq<Priced>): (r: seq<Record>)
    ensures |r| == |ps|
    ensures forall i :: 0 <= i < |ps| ==> r[i] == ps[i].row
  {
    seq(|ps|, i requires 0 <= i < |ps| => ps[i].row)
  }

  /** The float value of a close cell: NaN for a missing cell. */
  function CloseOf(c: Cell): Option<real>
    requires !c.Text?
  {
    match c
    case Num(x) => Some(x)
    case Missing => None
  }

  /** Column `k` as floats, or a TypeError when it holds text. */
  function CloseValues(rows: seq<Record>, k: nat): (r: Result<seq<Option<real>>, ReturnError>)
    ensures r.Failure? <==> exists i :: 0 <= i < |rows| && CellAt(rows[i].cells, k).Text?
    ensures r.Failure? ==> r.error == NonNumericClose
    ensures r.Success? ==> |r.value| == |rows|
    ensures r.Success? ==> forall i :: 0 <= i < |rows| ==> r.value[i] == CloseOf(CellAt(rows[i].cells, k))
  {
    if exists i :: 0 <= i < |rows| && CellAt(rows[i].cells, k).Text? then Failure(NonNumericClose)
    else Success(seq(|rows|, i requires 0 <= i < |rows| => CloseOf(CellAt(rows[i].cells, k))))
  }

  /** Forward fill (`fill_method='pad'`, the default of `pct_change` in pandas 2):
      each NaN takes the last value before it; leading NaNs stay. */
  function PadForward(xs: seq<Option<real>>): (r: seq<Option<real>>)
    ensures |r| == |xs|
    ensures forall i :: 0 <= i < |xs| && xs[i].Some? ==> r[i] == xs[i]
    ensures forall i :: 0 < i < |xs| && xs[i].None? ==> r[i] == r[i - 1]
    ensures |xs| > 0 && xs[0].None? ==> r[0].None?
  {
    if |xs| == 0 then []
    else
      var front := PadForward(xs[..|xs| - 1]);
      var last := if xs[|xs| - 1].Some? then xs[|xs| - 1] else if |front| > 0 then front[|front| - 1] else None;
      front + [last]
  }

  /** The percentage change from `p` to `c`. */
  function Percent(p: real, c: real): real
    requires p != 0.0
  {
    (c - p) / p * 100.0
  }

  /** One percentage return, with infinite values turned into NaN:
      NaN on either side, or a zero previous close, gives NaN. */
  function Change(prev: Option<real>, cur: Option<real>): (r: Option<real>)
    ensures r.Some? <==> prev.Some? && cur.Some? && prev.value != 0.0
    ensures r.Some? ==> r.value == Percent(prev.value, cur.value)
  {
    if prev.Some? && cur.Some? && prev.value != 0.0 then
      assert (cur.value / prev.value - 1.0) * 100.0 == Percent(prev.value, cur.value) by {
        RatioMinusOne(prev.value, cur.value);
      }
      Some((cur.value / prev.value - 1.0) * 100.0)
    else None
  }

  /** `c / p - 1` is the relative change `(c - p) / p`. */
  lemma RatioMinusOne(p: real, c: real)
    requires p != 0.0
    ensures (c / p - 1.0) * 100.0 == (c - p) / p * 100.0
  {
    assert (c - p) / p == c / p - p / p;
  }

  /** The percentage change of the close series, first entry NaN. */
  function PctChange(closes: seq<Option<real>>): (r: seq<Option<real>>)
    ensures |r| == |closes|
    ensures |r| > 0 ==> r[0].None?
    ensures forall i :: 0 < i < |closes| && closes[i - 1].Some? && closes[i].Some? ==>
      (r[i].Some? <==> closes[i - 1].value != 0.0) &&
      (r[i].Some? ==> r[i].value == Percent(closes[i - 1].value, closes[i].value))
  {
    var filled := PadForward(closes);
    var r := seq(|closes|, i requires 0 <= i < |closes| => if i == 0 then None else Change(filled[i - 1], filled[i]));
    forall i | 0 < i < |closes| && closes[i - 1].Some? && closes[i].Some?
      ensures (r[i].Some? <==> closes[i - 1].value != 0.0) &&
              (r[i].Some? ==> r[i].value == Percent(closes[i - 1].value, closes[i].value))
    {
      assert filled[i - 1] == closes[i - 1] && filled[i] == closes[i];
      assert r[i] == Change(closes[i - 1], closes[i]);
    }
    r
  }

  /** Under forward filling a missing close after a present non-zero one reads
      as an unchanged price: its return is 0, not NaN. */
  lemma PctChangeMissingClose(closes: seq<Option<real>>, i: nat)
    requires 0 < i < |closes| && closes[i].None?
    requires closes[i - 1].Some? && closes[i - 1].value != 0.0
    ensures PctChange(closes)[i] == Some(0.0)
  {
  }

  /** Forward filling carries the last present close across a run of missing ones. */
  lemma {:induction false} PadCarries(closes: seq<Option<real>>, j: nat, k: nat)
    requires j <= k < |closes| && closes[j].Some?
    requires forall m :: j < m <= k ==> closes[m].None?
    ensures PadForward(closes)[k] == closes[j]
  {
    if j < k {
      PadCarries(closes, j, k - 1);
    }
  }

  /** A present close after a run of missing ones is measured against the last
      present close before the gap. */
  lemma PctChangeAfterGap(closes: seq<Option<real>>, j: nat, i: nat)
    requires j < i < |closes|
    requires closes[j].Some? && closes[j].value != 0.0 && closes[i].Some?
    requires forall m :: j < m < i ==> closes[m].None?
    ensures PctChange(closes)[i] == Some(Percent(closes[j].value, closes[i].value))
  {
    PadCarries(closes, j, i - 1);
  }

  /** Every close before position `i` is missing. */
  ghost predicate NoneBefore(closes: seq<Option<real>>, i: nat) {
    forall m :: 0 <= m < i && m < |closes| ==> closes[m].None?
  }

  /** `j` is the last position before `i` holding a present close. */
  ghost predicate LastPresentBefore(closes: seq<Option<real>>, j: nat, i: nat) {
    j < i <= |closes| && closes[j].Some? && forall m :: j < m < i ==> closes[m].None?
  }

  /** The close at `i` after forward filling from the last present close `j`. */
  function FilledAt(closes: seq<Option<real>>, j: nat, i: nat): Option<real>
    requires j < i < |closes|
  {
    if closes[i].Some? then closes[i] else closes[j]
  }

  /** Forward filling leaves a leading run of missing closes missing. */
  lemma {:induction false} PadEmptyPrefix(closes: seq<Option<real>>, k: nat)
    requires k < |closes| && NoneBefore(closes, k + 1)
    ensures PadForward(closes)[k].None?
  {
    if k > 0 {
      assert NoneBefore(closes, k);
      PadEmptyPrefix(closes, k - 1);
    }
  }

  /** A return before any present close is NaN, whatever the close at `i` itself. */
  lemma PctChangeNoPrior(closes: seq<Option<real>>, i: nat)
    requires 0 < i < |closes| && NoneBefore(closes, i)
    ensures PctChange(closes)[i].None?
  {
    PadEmptyPrefix(closes, i - 1);
  }

  /** Once some close is present, the return at `i` compares the filled close at
      `i` with the last present close before it. */
  lemma PctChangeAfterRun(closes: seq<Option<real>>, j: nat, i: nat)
    requires i < |closes| && LastPresentBefore(closes, j, i)
    ensures PctChange(closes)[i] == Change(closes[j], FilledAt(closes, j, i))
  {
    PadCarries(closes, j, i - 1);
    if closes[i].None? {
      PadCarries(closes, j, i);
    }
  }

  /** Every close of a run of missing ones after a present non-zero close has
      return 0, not only the first. */
  lemma PctChangeMissingRun(closes: seq<Option<real>>, j: nat, i: nat)
    requires j < i < |closes|
    requires closes[j].Some? && closes[j].value != 0.0
    requires forall m :: j < m <= i ==> closes[m].None?
    ensures PctChange(closes)[i] == Some(0.0)
  {
    PctChangeAfterRun(closes, j, i);
  }

  /** After a zero close nothing can be measured until the next present close:
      the returns of the missing closes following it and of that close are NaN. */
  lemma PctChangeAfterZero(closes: seq<Option<real>>, j: nat, i: nat)
    requires i < |closes| && LastPresentBefore(closes, j, i) && closes[j].value == 0.0
    ensures PctChange(closes)[i].None?
  {
    PctChangeAfterRun(closes, j, i);
  }

  /** The percentage change under pad filling, described position by position
      without filling the series: the first return is NaN, a return with no
      earlier present close is NaN, and any other return compares the close at
      `i` (or, when missing, the last present one) with the last present close
      before `i`. */
  ghost predicate IsPadChange(closes: seq<Option<real>>, r: seq<Option<real>>) {
    && |r| == |closes|
    && (|r| > 0 ==> r[0].None?)
    && (forall i :: 0 < i < |r| && NoneBefore(closes, i) ==> r[i].None?)
    && (forall j: nat, i: nat :: 0 < i < |r| && LastPresentBefore(closes, j, i) ==> r[i] == Change(closes[j], FilledAt(closes, j, i)))
  }

  /** A position with some present close before it has a last one. */
  lemma {:induction false} LastPresentExists(closes: seq<Option<real>>, i: nat)
    requires 0 < i <= |closes| && !NoneBefore(closes, i)
    ensures exists j :: LastPresentBefore(closes, j, i)
  {
    if closes[i - 1].Some? {
      assert LastPresentBefore(closes, i - 1, i);
    } else {
      assert !NoneBefore(closes, i - 1);
      LastPresentExists(closes, i - 1);
      var j :| LastPresentBefore(closes, j, i - 1);
      assert LastPresentBefore(closes, j, i);
    }
  }

  /** `PctChange` is exactly the series the position-by-position description
      allows, and the only one. */
  lemma PctChangeCharacterised(closes: seq<Option<real>>, r: seq<Option<real>>)
    ensures IsPadChange(closes, r) <==> r == PctChange(closes)
  {
    var pc := PctChange(closes);
    forall i | 0 < i < |pc| && NoneBefore(closes, i) ensures pc[i].None? {
      PctChangeNoPrior(closes, i);
    }
    forall j: nat, i: nat | 0 < i < |pc| && LastPresentBefore(closes, j, i)
      ensures pc[i] == Change(closes[j], FilledAt(closes, j, i))
    {
      PctChangeAfterRun(closes, j, i);
    }
    assert IsPadChange(closes, pc);
    if IsPadChange(closes, r) {
      forall i | 0 <= i < |r| ensures r[i] == pc[i] {
        if i > 0 && !NoneBefore(closes, i) {
          LastPresentExists(closes, i);
          var j :| LastPresentBefore(closes, j, i);
        }
      }
    }
  }

  /** With every close present and non-zero, exactly the first of N returns is NaN. */
  lemma {:induction false} PctChangeAllPresent(closes: seq<Option<real>>)
    requires |closes| > 0
    requires forall i :: 0 <= i < |closes| ==> closes[i].Some? && closes[i].value != 0.0
    ensures Seqs.Count(PctChange(closes), (x: Option<real>) => x.Some?) == |closes| - 1
  {
    var r := PctChange(closes);
    var tail := r[1..];
    forall i | 0 <= i < |tail| ensures tail[i].Some? {
      assert tail[i] == r[i + 1];
      assert closes[i].Some? && closes[i + 1].Some? && closes[i].value != 0.0;
    }
    Seqs.FilterKeepsAll(tail, (x: Option<real>) => x.Some?);
    Seqs.FilterLength(tail, (x: Option<real>) => x.Some?);
    assert r[1..] == tail;
  }

  /** The price series 100, 102, 101, 105, 110 has returns NaN, 2, -100/102,
      400/101 and 500/105 percent (-0.9804, 3.9604 and 4.7619 to four places). */
  lemma PctChangeExample()
    ensures PctChange([Some(100.0), Some(102.0), Some(101.0), Some(105.0), Some(110.0)])
         == [None, Some(2.0), Some(-100.0 / 102.0), Some(400.0 / 101.0), Some(500.0 / 105.0)]
  {
  }

  /** Pairs each row with its return, given the row's close values. */
  function AttachReturns(rows: seq<Record>, k: nat, closes: seq<Option<real>>): (ps: seq<Priced>)
    requires |closes| == |rows|
    requires forall i :: 0 <= i < |rows| && !CellAt(rows[i].cells, k).Text? ==> closes[i] == CloseOf(CellAt(rows[i].cells, k))
    ensures RowsOf(ps) == rows
    ensures |ps| > 0 ==> ps[0].dailyReturn.None?
    ensures ReturnsFollowClose(ps, k)
    ensures forall i :: 0 <= i < |ps| ==> ps[i].dailyReturn == PctChange(closes)[i]
  {
    var changes := PctChange(closes);
    var ps := seq(|rows|, i requires 0 <= i < |rows| => Priced(rows[i], changes[i]));
    assert ReturnsFollowClose(ps, k) by {
      forall i | 0 < i < |ps| && CellAt(ps[i - 1].row.cells, k).Num? && CellAt(ps[i].row.cells, k).Num?
        ensures var p, c := CellAt(ps[i - 1].row.cells, k).x, CellAt(ps[i].row.cells, k).x;
          (ps[i].dailyReturn.Some? <==> p != 0.0) &&
          (ps[i].dailyReturn.Some? ==> ps[i].dailyReturn.value == Percent(p, c))
      {
        assert ps[i - 1].row == rows[i - 1] && ps[i].row == rows[i];
        var cp, cc := CellAt(rows[i - 1].cells, k), CellAt(rows[i].cells, k);
        assert closes[i - 1] == CloseOf(cp) == Some(cp.x);
        assert closes[i] == CloseOf(cc) == Some(cc.x);
      }
    }
    ps
  }

  /** `calculate_daily_returns`: sort by date, locate the close column, add the
      percentage change of the close as `daily_return`. */
  function DailyReturns(t: Table): (r: Result<seq<Priced>, ReturnError>)
    ensures r == Failure(NoCloseColumn) <==> forall j :: 0 <= j < |t.columns| ==> !Matches(t.columns, "close", j)
    ensures r.Success? <==>
              exists k ::
                IsFirstMatch(t.columns, "close", Some(k)) &&
                forall i :: 0 <= i < |t.rows| ==> !CellAt(t.rows[i].cells, k).Text?
    ensures r.Success? ==> |r.value| == |t.rows|
    ensures r.Success? ==> Seqs.SortedBy(RowsOf(r.value), DateOf)
    ensures r.Success? ==> multiset(RowsOf(r.value)) == multiset(t.rows)
    ensures r.Success? && |r.value| > 0 ==> r.value[0].dailyReturn.None?
    ensures r.Success? ==> exists k :: IsFirstMatch(t.columns, "close", Some(k)) && ReturnsArePctChange(r.value, k)
  {
    var sorted := Seqs.SortBy(t.rows, DateOf);
    match FindCloseColumn(t.columns)
    case None =>
      assert forall k :: !IsFirstMatch(t.columns, "close", Some(k));
      Failure(NoCloseColumn)
    case Some(k) =>
      ReturnsSucceed(t, sorted, k);
      match CloseValues(sorted, k)
      case Failure(e) => Failure(e)
      case Success(closes) => Success(AttachReturns(sorted, k, closes))
  }

  /** With `k` the first close-like column, the close values of the sorted rows
      are numeric exactly when that column of the input holds no text. */
  lemma ReturnsSucceed(t: Table, sorted: seq<Record>, k: nat)
    requires multiset(sorted) == multiset(t.rows)
    requires IsFirstMatch(t.columns, "close", Some(k))
    ensures CloseValues(sorted, k).Success? <==>
              exists k' ::
                IsFirstMatch(t.columns, "close", Some(k')) &&
                forall i :: 0 <= i < |t.rows| ==> !CellAt(t.rows[i].cells, k').Text?
  {
    SameCells(sorted, t.rows, k);
    forall k' | IsFirstMatch(t.columns, "close", Some(k')) ensures k' == k {
      FirstMatchUnique(t.columns, "close", Some(k'), Some(k));
    }
  }

  /** A reordering of the rows holds text in column `k` exactly when the original does. */
  lemma SameCells(a: seq<Record>, b: seq<Record>, k: nat)
    requires multiset(a) == multiset(b)
    ensures (exists i :: 0 <= i < |a| && CellAt(a[i].cells, k).Text?) <==>
            (exists i :: 0 <= i < |b| && CellAt(b[i].cells, k).Text?)
  {
    if i :| 0 <= i < |a| && CellAt(a[i].cells, k).Text? {
      assert a[i] in multiset(b);
      var j :| 0 <= j < |b| && b[j] == a[i];
    }
    if i :| 0 <= i < |b| && CellAt(b[i].cells, k).Text? {
      assert b[i] in multiset(a);
      var j :| 0 <= j < |a| && a[j] == b[i];
    }
  }

  /** The returns are the forward-filled percentage changes of the close
      values in column `k`, taken in row order. */
  ghost predicate ReturnsArePctChange(ps: seq<Priced>, k: nat) {
    var closes := CloseValues(RowsOf(ps), k);
    closes.Success? && forall i :: 0 <= i < |ps| ==> ps[i].dailyReturn == PctChange(closes.value)[i]
  }

  /** In the returned table, a row whose close is missing right after a present
      non-zero close has return 0: the forward fill reads it as an unchanged price. */
  lemma DailyReturnsPadsMissingClose(t: Table)
    ensures var r := DailyReturns(t);
            r.Success? ==> FindCloseColumn(t.columns).Some? && MissingCloseIsFlat(r.value, FindCloseColumn(t.columns).value)
  {
    var r := DailyReturns(t);
    if r.Success? {
      var k :| IsFirstMatch(t.columns, "close", Some(k)) && ReturnsArePctChange(r.value, k);
      FirstMatchUnique(t.columns, "close", FindCloseColumn(t.columns), Some(k));
      PctChangeFlat(r.value, k);
    }
  }

  /** Every row whose close in column `k` is missing right after a present
      non-zero close has return 0. */
  ghost predicate MissingCloseIsFlat(ps: seq<Priced>, k: nat) {
    forall i ::
      (0 < i < |ps| && CellAt(ps[i - 1].row.cells, k).Num? && CellAt(ps[i - 1].row.cells, k).x != 0.0 &&
       CellAt(ps[i].row.cells, k).Missing?) ==> ps[i].dailyReturn == Some(0.0)
  }

  /** Forward-filled percentage changes read a missing close after a present
      non-zero one as an unchanged price. */
  lemma PctChangeFlat(ps: seq<Priced>, k: nat)
    requires ReturnsArePctChange(ps, k)
    ensures MissingCloseIsFlat(ps, k)
  {
    var rows := RowsOf(ps);
    var closes := CloseValues(rows, k).value;
    forall i | 0 < i < |ps| && CellAt(ps[i - 1].row.cells, k).Num? && CellAt(ps[i - 1].row.cells, k).x != 0.0 &&
               CellAt(ps[i].row.cells, k).Missing?
      ensures ps[i].dailyReturn == Some(0.0)
    {
      assert closes[i - 1] == Some(CellAt(rows[i - 1].cells, k).x);
      assert closes[i] == None;
      PctChangeMissingClose(closes, i);
    }
  }

  /** Forward-filled percentage changes of the closes are, between two numeric
      closes, the plain percentage change. */
  lemma PctChangeFollowsClose(ps: seq<Priced>, k: nat)
    requires ReturnsArePctChange(ps, k)
    ensures ReturnsFollowClose(ps, k)
  {
    var rows := RowsOf(ps);
    var closes := CloseValues(rows, k).value;
    forall i | 0 < i < |ps| && CellAt(ps[i - 1].row.cells, k).Num? && CellAt(ps[i].row.cells, k).Num?
      ensures var p, c := CellAt(ps[i - 1].row.cells, k).x, CellAt(ps[i].row.cells, k).x;
        (ps[i].dailyReturn.Some? <==> p != 0.0) &&
        (ps[i].dailyReturn.Some? ==> ps[i].dailyReturn.value == Percent(p, c))
    {
      assert closes[i - 1] == Some(CellAt(rows[i - 1].cells, k).x);
      assert closes[i] == Some(CellAt(rows[i].cells, k).x);
    }
  }

  /** In the returned table, the return between two numeric closes is their
      percentage change, and NaN exactly when the earlier close is zero. */
  lemma DailyReturnsFollowClose(t: Table)
    ensures var r := DailyReturns(t);
            r.Success? ==> exists k :: IsFirstMatch(t.columns, "close", Some(k)) && ReturnsFollowClose(r.value, k)
  {
    var r := DailyReturns(t);
    if r.Success? {
      var k :| IsFirstMatch(t.columns, "close", Some(k)) && ReturnsArePctChange(r.value, k);
      PctChangeFollowsClose(r.value, k);
    }
  }

  /** Between two consecutive rows with numeric closes p and c in column `k`,
      the return is (c - p) / p * 100, and NaN exactly when p is zero. */
  ghost predicate ReturnsFollowClose(ps: seq<Priced>, k: nat) {
    forall i :: 0 < i < |ps| && CellAt(ps[i - 1].row.cells, k).Num? && CellAt(ps[i].row.cells, k).Num? ==>
      var p, c := CellAt(ps[i - 1].row.cells, k).x, CellAt(ps[i].row.cells, k).x;
      (ps[i].dailyReturn.Some? <==> p != 0.0) &&
      (ps[i].dailyReturn.Some? ==> ps[i].dailyReturn.value == Percent(p, c))
  }

  /** A correlation coefficient and its two-sided p-value; None stands for NaN. */
  datatype Corr = Corr(coef: Option<real>, p: Option<real>)

  /** `pearsonr` and `spearmanr`, applied to two equally long columns. */
  datatype Stats = Stats(pearson: (seq<real>, seq<real>) -> Corr, spearman: (seq<real>, seq<real>) -> Corr)

  /** A row of the table joining daily sentiment with daily returns. */
  datatype CombinedRow = CombinedRow(
    date: int,
    avgPolarity: Option<real>,
    avgCompound: Option<real>,
    positiveRatio: real,
    dailyReturn: Option<real>)

  /** The joined table; `hasPositiveRatio` says whether it has a `positive_ratio` column. */
  datatype Combined = Combined(hasPositiveRatio: bool, rows: seq<CombinedRow>)

  /** A row none of whose required fields (`avg_polarity`, `daily_return`,
      `avg_vader_compound`) is NaN. */
  predicate Complete(r: CombinedRow) {
    r.avgPolarity.Some? && r.dailyReturn.Some? && r.avgCompound.Some?
  }

  /** `total_days` and the first and last date of `date_range`. */
  datatype Summary = Summary(totalDays: nat, first: int, last: int)

  datatype Correlations = Correlations(
    pearsonPolarity: Corr,
    pearsonCompound: Corr,
    spearmanPolarity: Corr,
    spearmanCompound: Corr,
    pearsonPositiveRatio: Corr)

  datatype CorrelationResults = CorrelationResults(summary: Summary, correlations: Correlations)

  /** The values of one field down the rows; every row passed is complete, so
      the 0.0 of a missing field is never read. */
  function Column(rows: seq<CombinedRow>, f: CombinedRow -> Option<real>): (r: seq<real>)
    ensures |r| == |rows|
    ensures forall i :: 0 <= i < |rows| && f(rows[i]).Some? ==> r[i] == f(rows[i]).value
  {
    seq(|rows|, i requires 0 <= i < |rows| => match f(rows[i]) case Some(x) => x case None => 0.0)
  }

  function PolarityOf(r: CombinedRow): Option<real> { r.avgPolarity }
  function CompoundOf(r: CombinedRow): Option<real> { r.avgCompound }
  function ReturnOf(r: CombinedRow): Option<real> { r.dailyReturn }
  function RatioOf(r: CombinedRow): Option<real> { Some(r.positiveRatio) }

  /** The five statistics of `calculate_correlations`, each applied to the rows
      `dropna` keeps, in their joined order: sentiment against the daily return,
      Pearson and Spearman for polarity and compound, and Pearson for the
      positive ratio when that column exists. */
  ghost predicate CorrelatesComplete(c: Combined, st: Stats, k: Correlations) {
    var clean := Seqs.Filter(c.rows, Complete);
    var daily := Column(clean, ReturnOf);
    && k.pearsonPolarity == st.pearson(Column(clean, PolarityOf), daily)
    && k.pearsonCompound == st.pearson(Column(clean, CompoundOf), daily)
    && k.spearmanPolarity == st.spearman(Column(clean, PolarityOf), daily)
    && k.spearmanCompound == st.spearman(Column(clean, CompoundOf), daily)
    && k.pearsonPositiveRatio == (if c.hasPositiveRatio then st.pearson(Column(clean, RatioOf), daily) else Corr(None, None))
  }

  function Dates(rows: seq<CombinedRow>): (r: seq<int>)
    ensures |r| == |rows|
    ensures forall i :: 0 <= i < |rows| ==> r[i] == rows[i].date
  {
    seq(|rows|, i requires 0 <= i < |rows| => rows[i].date)
  }

  /** `s` summarises the complete rows: their number, and the earliest and
      latest of their dates. */
  ghost predicate SummarisesComplete(rows: seq<CombinedRow>, s: Summary) {
    && s.totalDays == Seqs.Count(rows, Complete)
    && (exists i :: 0 <= i < |rows| && Complete(rows[i]) && rows[i].date == s.first)
    && (exists i :: 0 <= i < |rows| && Complete(rows[i]) && rows[i].date == s.last)
    && (forall i :: 0 <= i < |rows| && Complete(rows[i]) ==> s.first <= rows[i].date <= s.last)
  }

  /** `total_days` and `date_range` of the rows left after `dropna`. */
  function SummaryOf(rows: seq<CombinedRow>): (s: Summary)
    requires Seqs.Count(rows, Complete) > 0
    ensures SummarisesComplete(rows, s)
  {
    var clean := Seqs.Filter(rows, Complete);
    Seqs.FilterLength(rows, Complete);
    var dates := Dates(clean);
    var first, last := Seqs.Min(dates), Seqs.Max(dates);
    assert exists i :: 0 <= i < |rows| && Complete(rows[i]) && rows[i].date == first by {
      var j :| 0 <= j < |dates| && dates[j] == first;
      var i :| 0 <= i < |rows| && rows[i] == clean[j];
    }
    assert exists i :: 0 <= i < |rows| && Complete(rows[i]) && rows[i].date == last by {
      var j :| 0 <= j < |dates| && dates[j] == last;
      var i :| 0 <= i < |rows| && rows[i] == clean[j];
    }
    assert forall i :: 0 <= i < |rows| && Complete(rows[i]) ==> first <= rows[i].date <= last by {
      forall i | 0 <= i < |rows| && Complete(rows[i]) ensures first <= rows[i].date <= last {
        var j :| 0 <= j < |clean| && clean[j] == rows[i];
        assert dates[j] == rows[i].date;
      }
    }
    Summary(|clean|, first, last)
  }

  /** `calculate_correlations`. */
  function CalculateCorrelations(c: Combined, st: Stats): (r: Option<CorrelationResults>)
    ensures r.None? <==> Seqs.Count(c.rows, Complete) < 2
    ensures r.Some? ==> SummarisesComplete(c.rows, r.value.summary)
    ensures r.Some? && !c.hasPositiveRatio ==> r.value.correlations.pearsonPositiveRatio == Corr(None, None)
    ensures r.Some? ==> CorrelatesComplete(c, st, r.value.correlations)
  {
    var clean := Seqs.Filter(c.rows, Complete);
    Seqs.FilterLength(c.rows, Complete);
    if |clean| < 2 then None
    else
      var polarity := Column(clean, PolarityOf);
      var compound := Column(clean, CompoundOf);
      var daily := Column(clean, ReturnOf);
      var ratio := Column(clean, RatioOf);
      Some(CorrelationResults(
        SummaryOf(c.rows),
        Correlations(
          st.pearson(polarity, daily),
          st.pearson(compound, daily),
          st.spearman(polarity, daily),
          st.spearman(compound, daily),
          if c.hasPositiveRatio then st.pearson(ratio, daily) else Corr(None, None))))
  }

  /** With every required field present in at least two rows, nothing is
      dropped: `total_days` is the number of joined rows. */
  lemma CorrelationsKeepCompleteRows(c: Combined, st: Stats)
    requires |c.rows| >= 2
    requires forall i :: 0 <= i < |c.rows| ==> Complete(c.rows[i])
    ensures CalculateCorrelations(c, st).Some?
    ensures CalculateCorrelations(c, st).value.summary.totalDays == |c.rows|
    ensures CalculateCorrelations(c, st).value.correlations.pearsonPolarity
         == st.pearson(Column(c.rows, PolarityOf), Column(c.rows, ReturnOf))
    ensures CalculateCorrelations(c, st).value.correlations.spearmanCompound
         == st.spearman(Column(c.rows, CompoundOf), Column(c.rows, ReturnOf))
  {
    Seqs.FilterKeepsAll(c.rows, Complete);
    Seqs.FilterLength(c.rows, Complete);
  }

  /** A joined row missing polarity, return or compound is dropped before any
      statistic is taken: appending one changes nothing in the result. */
  lemma CorrelationsIgnoreIncompleteRow(c: Combined, x: CombinedRow, st: Stats)
    requires !Complete(x)
    ensures CalculateCorrelations(Combined(c.hasPositiveRatio, c.rows + [x]), st) == CalculateCorrelations(c, st)
  {
    Seqs.FilterSnoc(c.rows, x, Complete);
    assert Seqs.Filter(c.rows + [x], Complete) == Seqs.Filter(c.rows, Complete);
    Seqs.FilterLength(c.rows, Complete);
    Seqs.FilterLength(c.rows + [x], Complete);
  }

  /** The significance marker of a p-value; NaN compares false everywhere and gets none. */
  function Stars(p: Option<real>): (s: string)
    ensures s == "***" <==> p.Some? && p.value < 0.001
    ensures s == "**" <==> p.Some? && 0.001 <= p.value < 0.01
    ensures s == "*" <==> p.Some? && 0.01 <= p.value < 0.05
    ensures s == "" <==> p.None? || p.value >= 0.05
  {
    match p
    case None => ""
    case Some(v) => if v < 0.001 then "***" else if v < 0.01 then "**" else if v < 0.05 then "*" else ""
  }

  /** A smaller p-value never earns fewer stars. */
  lemma StarsMonotone(p: real, q: real)
    requires p <= q
    ensures |Stars(Some(p))| >= |Stars(Some(q))|
  {
  }

  /** One line of the report: "Not available" or the coefficient, p-value and stars. */
  datatype RowReport = NotAvailable | Shown(coef: real, p: Option<real>, stars: string)

  /** `_print_correlation_row`. */
  function ReportRow(c: Corr): (r: RowReport)
    ensures r.NotAvailable? <==> c.coef.None?
    ensures r.Shown? ==> r.coef == c.coef.value && r.p == c.p && r.stars == Stars(c.p)
  {
    match c.coef
    case None => NotAvailable
    case Some(v) => Shown(v, c.p, Stars(c.p))
  }

  /** Without a `positive_ratio` column its correlation is reported as not available, not as zero. */
  lemma PositiveRatioUnavailable(c: Combined, st: Stats)
    requires !c.hasPositiveRatio
    requires CalculateCorrelations(c, st).Some?
    ensures ReportRow(CalculateCorrelations(c, st).value.correlations.pearsonPositiveRatio) == NotAvailable
  {
  }
}

=== FILE: data_loader.dfy ===
/** The date handling of `DataLoader`: locating the date column, parsing and
    normalising dates while dropping unparseable rows, and aligning a news table
    with a price table on their common date range. Dates are naive wall-clock
    timestamps in seconds; the CSV reader and the date parser are parameters. */
module DataLoader {
  import opened Optional
  import opened Frames
  import Strings
  import Seqs

  const SecondsPerDay: int := 86400

  /** `_find_date_column`: the first column whose lower-cased name contains "date". */
  function FindDateColumn(columns: seq<string>): (r: Option<nat>)
    ensures IsFirstMatch(columns, "date", r)
  {
    FindColumn(columns, "date")
  }

  /** A timestamp at midnight. */
  predicate IsDay(t: int) {
    t % SecondsPerDay == 0
  }

  /** `dt.normalize()`: midnight of the day holding `t`. */
  function Normalize(t: int): (d: int)
    ensures IsDay(d)
    ensures d <= t < d + SecondsPerDay
  {
    t - t % SecondsPerDay
  }

  /** The day of a timestamp is the only midnight at most a day before it, so
      normalising a midnight changes nothing. */
  lemma {:induction false} NormalizeUnique(t: int, d: int)
    requires IsDay(d) && d <= t < d + SecondsPerDay
    ensures Normalize(t) == d
  {
    var n := Normalize(t);
    assert n % SecondsPerDay == 0 && d % SecondsPerDay == 0;
    assert n == (n / SecondsPerDay) * SecondsPerDay;
    assert d == (d / SecondsPerDay) * SecondsPerDay;
    assert -SecondsPerDay < n - d < SecondsPerDay;
    var q := n / SecondsPerDay - d / SecondsPerDay;
    assert n - d == q * SecondsPerDay;
  }

  /** Every column name lower-cased, as both loaders do right after reading the CSV. */
  function LowerColumns(columns: seq<string>): (r: seq<string>)
    ensures |r| == |columns|
  {
    seq(|columns|, i requires 0 <= i < |columns| => Strings.Lower(columns[i]))
  }

  /** Lower-casing the names before the search finds the same column as the
      case-insensitive search on the original names. */
  lemma {:induction false} LowerColumnsSameMatch(columns: seq<string>, key: string)
    ensures forall i :: 0 <= i < |columns| ==>
      (Matches(LowerColumns(columns), key, i) <==> Matches(columns, key, i))
  {
    forall i | 0 <= i < |columns|
      ensures Matches(LowerColumns(columns), key, i) <==> Matches(columns, key, i)
    {
      Strings.LowerIdempotent(columns[i]);
    }
  }

  /** A raw row whose date cell in column `k` parses. */
  predicate Parses(parse: Cell -> Option<int>, k: nat, row: seq<Cell>) {
    parse(CellAt(row, k)).Some?
  }

  /** `rec` is the record made of `row`: its parsed date normalised, the date cell removed. */
  ghost predicate FromRow(parse: Cell -> Option<int>, k: nat, row: seq<Cell>, rec: Record) {
    parse(CellAt(row, k)).Some? &&
    rec == Record(Normalize(parse(CellAt(row, k)).value), RemoveAt(row, k))
  }

  /** Date parsing with coercion, dropping of rows without a date, and
      normalisation, on date column `k`: unparseable rows are dropped, the
      others keep their order. */
  function ParseDates(rows: seq<seq<Cell>>, k: nat, parse: Cell -> Option<int>): (r: seq<Record>)
    ensures |r| == Seqs.Count(rows, row => Parses(parse, k, row))
    ensures forall i :: 0 <= i < |r| ==> IsDay(r[i].date)
    ensures forall i :: 0 <= i < |r| ==> exists j :: 0 <= j < |rows| && FromRow(parse, k, rows[j], r[i])
  {
    if |rows| == 0 then []
    else
      var rest := ParseDates(rows[1..], k, parse);
      assert forall i :: 0 <= i < |rest| ==> exists j :: 0 <= j < |rows| && FromRow(parse, k, rows[j], rest[i]) by {
        forall i | 0 <= i < |rest| ensures exists j :: 0 <= j < |rows| && FromRow(parse, k, rows[j], rest[i]) {
          var j :| 0 <= j < |rows[1..]| && FromRow(parse, k, rows[1..][j], rest[i]);
          assert FromRow(parse, k, rows[j + 1], rest[i]);
        }
      }
      ParseRow(rows[0], k, parse) + rest
  }

  /** The record of one raw row, or none when its date cell does not parse. */
  function ParseRow(row: seq<Cell>, k: nat, parse: Cell -> Option<int>): (r: seq<Record>)
    ensures |r| == if Parses(parse, k, row) then 1 else 0
    ensures forall i :: 0 <= i < |r| ==> IsDay(r[i].date) && FromRow(parse, k, row, r[i])
  {
    match parse(CellAt(row, k))
    case None => []
    case Some(t) => [Record(Normalize(t), RemoveAt(row, k))]
  }

  /** Parsing row by row: the records of two blocks of rows are the records of
      the first block followed by those of the second. */
  lemma {:induction false} ParseDatesConcat(a: seq<seq<Cell>>, b: seq<seq<Cell>>, k: nat, parse: Cell -> Option<int>)
    ensures ParseDates(a + b, k, parse) == ParseDates(a, k, parse) + ParseDates(b, k, parse)
  {
    if |a| == 0 {
      assert a + b == b;
    } else {
      var ab := a + b;
      assert ab[0] == a[0] && ab[1..] == a[1..] + b;
      ParseDatesConcat(a[1..], b, k, parse);
    }
  }

  /** The outcome of a successful read: a table with a date column, or the
      frame unchanged apart from its column names when no column name contains "date". */
  datatype Loaded = Dated(table: Table) | Undated(frame: RawFrame)

  /** The steps of `load_stock_data` and `load_analyst_ratings` after the CSV is read. */
  function Load(raw: RawFrame, parse: Cell -> Option<int>): (l: Loaded)
    ensures l.Dated? <==> exists i :: 0 <= i < |raw.columns| && Matches(raw.columns, "date", i)
    ensures l.Undated? ==> l.frame == RawFrame(LowerColumns(raw.columns), raw.rows)
    ensures l.Dated? ==>
              exists k ::
                IsFirstMatch(raw.columns, "date", Some(k)) &&
                l.table.columns == RemoveAt(LowerColumns(raw.columns), k) &&
                l.table.rows == ParseDates(raw.rows, k, parse)
    ensures l.Dated? ==> forall i :: 0 <= i < |l.table.rows| ==> IsDay(l.table.rows[i].date)
  {
    var columns := LowerColumns(raw.columns);
    LowerColumnsSameMatch(raw.columns, "date");
    match FindDateColumn(columns)
    case None => Undated(RawFrame(columns, raw.rows))
    case Some(k) => Dated(Table(RemoveAt(columns, k), ParseDates(raw.rows, k, parse)))
  }

  /** Loading depends on the column names only through their lower-case
      forms: headers "Date" and "DATE" load the same table. */
  lemma LoadIgnoresCase(a: RawFrame, b: RawFrame, parse: Cell -> Option<int>)
    requires a.rows == b.rows
    requires |a.columns| == |b.columns|
    requires forall i :: 0 <= i < |a.columns| ==> Strings.Lower(a.columns[i]) == Strings.Lower(b.columns[i])
    ensures Load(a, parse) == Load(b, parse)
  {
    assert LowerColumns(a.columns) == LowerColumns(b.columns);
  }

  /** A header "Date" is found and becomes the date column. */
  lemma LoadFindsCapitalisedDate(rows: seq<seq<Cell>>, parse: Cell -> Option<int>)
    ensures Load(RawFrame(["Date", "Close"], rows), parse) == Dated(Table(["close"], ParseDates(rows, 0, parse)))
  {
    assert Strings.Lower("Date") == "date";
    assert Strings.Lower("Close") == "close";
    assert Strings.OccursAt("date", "date", 0);
    assert LowerColumns(["Date", "Close"]) == ["date", "close"];
  }

  /** The earliest date of a table: NaT (None) when it has no rows. */
  function MinDate(rows: seq<Record>): (r: Option<int>)
    ensures r.None? <==> |rows| == 0
    ensures r.Some? ==> exists i :: 0 <= i < |rows| && rows[i].date == r.value
    ensures r.Some? ==> forall i :: 0 <= i < |rows| ==> r.value <= rows[i].date
  {
    if |rows| == 0 then None
    else match MinDate(rows[1..])
      case None => Some(rows[0].date)
      case Some(m) =>
        assert exists i :: 0 <= i < |rows| && rows[i].date == m by {
          var i :| 0 <= i < |rows[1..]| && rows[1..][i].date == m;
          assert rows[i + 1].date == m;
        }
        Some(if rows[0].date < m then rows[0].date else m)
  }

  /** The latest date of a table: NaT (None) when it has no rows. */
  function MaxDate(rows: seq<Record>): (r: Option<int>)
    ensures r.None? <==> |rows| == 0
    ensures r.Some? ==> exists i :: 0 <= i < |rows| && rows[i].date == r.value
    ensures r.Some? ==> forall i :: 0 <= i < |rows| ==> rows[i].date <= r.value
  {
    if |rows| == 0 then None
    else match MaxDate(rows[1..])
      case None => Some(rows[0].date)
      case Some(m) =>
        assert exists i :: 0 <= i < |rows| && rows[i].date == m by {
          var i :| 0 <= i < |rows[1..]| && rows[1..][i].date == m;
          assert rows[i + 1].date == m;
        }
        Some(if rows[0].date > m then rows[0].date else m)
  }

  /** `a < b` on timestamps, where any comparison with NaT is false. */
  predicate Before(a: Option<int>, b: Option<int>) {
    a.Some? && b.Some? && a.value < b.value
  }

  /** Python's builtin `max(a, b)`: `a` unless `b > a`. */
  function PyMax(a: Option<int>, b: Option<int>): Option<int> {
    if Before(a, b) then b else a
  }

  /** Python's builtin `min(a, b)`: `a` unless `b < a`. */
  function PyMin(a: Option<int>, b: Option<int>): Option<int> {
    if Before(b, a) then b else a
  }

  /** The common date range `[common_start, common_end]`. */
  datatype Window = Window(start: Option<int>, end: Option<int>)

  function CommonWindow(news: seq<Record>, stock: seq<Record>): Window {
    Window(PyMax(MinDate(news), MinDate(stock)), PyMin(MaxDate(news), MaxDate(stock)))
  }

  /** A date within the closed window; never within a window with a NaT bound. */
  predicate InWindow(w: Window, d: int) {
    w.start.Some? && w.end.Some? && w.start.value <= d <= w.end.value
  }

  /** The later of the first dates of two non-empty tables. */
  function LaterStart(a: seq<Record>, b: seq<Record>): int
    requires |a| > 0 && |b| > 0
  {
    var x, y := MinDate(a).value, MinDate(b).value;
    if x < y then y else x
  }

  /** The earlier of the last dates of two non-empty tables. */
  function EarlierEnd(a: seq<Record>, b: seq<Record>): int
    requires |a| > 0 && |b| > 0
  {
    var x, y := MaxDate(a).value, MaxDate(b).value;
    if x < y then x else y
  }

  /** With two non-empty tables the window is the intersection of their closed
      date ranges, whichever table comes first. */
  lemma CommonWindowSymmetric(a: seq<Record>, b: seq<Record>)
    requires |a| > 0 && |b| > 0
    ensures CommonWindow(a, b) == CommonWindow(b, a)
    ensures CommonWindow(a, b) == Window(Some(LaterStart(a, b)), Some(EarlierEnd(a, b)))
  {
    var ma, mb := MinDate(a), MinDate(b);
    var xa, xb := MaxDate(a), MaxDate(b);
    assert ma.Some? && mb.Some? && xa.Some? && xb.Some?;
    assert CommonWindow(a, b) == Window(PyMax(ma, mb), PyMin(xa, xb));
    assert CommonWindow(b, a) == Window(PyMax(mb, ma), PyMin(xb, xa));
  }

  /** The window in the three cases `align_dates` meets: an empty news table
      gives a NaT start; an empty price table leaves the news table's own range;
      otherwise the intersection of the two ranges. */
  lemma WindowCases(n: seq<Record>, s: seq<Record>)
    ensures |n| == 0 ==> CommonWindow(n, s).start.None?
    ensures |n| > 0 && |s| == 0 ==> CommonWindow(n, s) == Window(MinDate(n), MaxDate(n))
    ensures |n| > 0 && |s| > 0 ==> CommonWindow(n, s) == Window(Some(LaterStart(n, s)), Some(EarlierEnd(n, s)))
  {
    if |n| > 0 && |s| > 0 {
      CommonWindowSymmetric(n, s);
    }
  }

  /** Every row's date normalised (the `dt.normalize()` step of `align_dates`). */
  function NormalizeRows(rows: seq<Record>): (r: seq<Record>)
    ensures |r| == |rows|
    ensures forall i :: 0 <= i < |r| ==> r[i].cells == rows[i].cells && IsDay(r[i].date)
  {
    seq(|rows|, i requires 0 <= i < |rows| => rows[i].(date := Normalize(rows[i].date)))
  }

  /** Rows that went through `Load` are already normalised, so `align_dates`
      alters none of them. */
  lemma NormalizeRowsKeepsDays(rows: seq<Record>)
    requires forall i :: 0 <= i < |rows| ==> IsDay(rows[i].date)
    ensures NormalizeRows(rows) == rows
  {
    forall i | 0 <= i < |rows| ensures NormalizeRows(rows)[i] == rows[i] {
      NormalizeUnique(rows[i].date, rows[i].date);
    }
  }

  /** `output` is the rows of `input` dated within [lo, hi], each kept exactly
      as often as it occurs: none outside the range, none doubled, none invented. */
  ghost predicate KeepsRange(input: seq<Record>, output: seq<Record>, lo: int, hi: int) {
    && (forall i :: 0 <= i < |output| ==> lo <= output[i].date <= hi)
    && multiset(output) <= multiset(input)
    && (forall i :: 0 <= i < |input| ==>
          multiset(output)[input[i]] == if lo <= input[i].date <= hi then multiset(input)[input[i]] else 0)
  }

  /** The boolean-mask selection of `align_dates`: the rows of `t` dated within
      `w`, in their original order. */
  function FilterToWindow(t: Table, w: Window): (r: Table)
    ensures r.columns == t.columns
    ensures forall i :: 0 <= i < |r.rows| ==> InWindow(w, r.rows[i].date)
    ensures multiset(r.rows) <= multiset(t.rows)
    ensures forall i :: 0 <= i < |t.rows| ==>
      multiset(r.rows)[t.rows[i]] == if InWindow(w, t.rows[i].date) then multiset(t.rows)[t.rows[i]] else 0
  {
    Seqs.FilterCounts(t.rows, (rec: Record) => InWindow(w, rec.date));
    Table(t.columns, Seqs.Filter(t.rows, (rec: Record) => InWindow(w, rec.date)))
  }

  /** The selection works block by block: the rows of two blocks are selected
      separately and kept in order. */
  lemma FilterToWindowConcat(columns: seq<string>, a: seq<Record>, b: seq<Record>, w: Window)
    ensures FilterToWindow(Table(columns, a + b), w).rows
         == FilterToWindow(Table(columns, a), w).rows + FilterToWindow(Table(columns, b), w).rows
  {
    Seqs.FilterConcat(a, b, (rec: Record) => InWindow(w, rec.date));
  }

  /** A single row is kept exactly when it lies in the window. */
  lemma FilterToWindowSingle(columns: seq<string>, x: Record, w: Window)
    ensures FilterToWindow(Table(columns, [x]), w).rows == if InWindow(w, x.date) then [x] else []
  {
    assert [x][1..] == [];
  }

  /** Filtering a second time to the same window keeps every row. */
  lemma FilterToWindowIdempotent(t: Table, w: Window)
    ensures FilterToWindow(FilterToWindow(t, w), w) == FilterToWindow(t, w)
  {
    Seqs.FilterIdempotent(t.rows, (rec: Record) => InWindow(w, rec.date));
  }

  /** `align_dates(news_df, stock_df)`: both tables restricted to the dates
      from the later of their first days to the earlier of their last days.
      With no news rows the range is NaT and nothing is kept; with news but no
      price rows Python's `max`/`min` ignore the price table's NaT and the news
      table is kept whole; an empty range gives two empty frames. */
  function AlignDates(news: Table, stock: Table): (r: (Table, Table))
    ensures r == (EmptyTable, EmptyTable) || (r.0.columns == news.columns && r.1.columns == stock.columns)
    ensures multiset(r.0.rows) <= multiset(NormalizeRows(news.rows))
    ensures multiset(r.1.rows) <= multiset(NormalizeRows(stock.rows))
    ensures |news.rows| == 0 ==> |r.0.rows| == 0 && |r.1.rows| == 0
    ensures |news.rows| > 0 && |stock.rows| == 0 ==>
              r.0 == Table(news.columns, NormalizeRows(news.rows)) && r.1 == Table(stock.columns, [])
    ensures |news.rows| > 0 && |stock.rows| > 0 ==>
              var n, s := NormalizeRows(news.rows), NormalizeRows(stock.rows);
              var lo, hi := LaterStart(n, s), EarlierEnd(n, s);
              (hi < lo ==> r == (EmptyTable, EmptyTable)) &&
              (lo <= hi ==>
                 KeepsRange(n, r.0.rows, lo, hi) && KeepsRange(s, r.1.rows, lo, hi) &&
                 r.0 == FilterToWindow(Table(news.columns, n), Window(Some(lo), Some(hi))) &&
                 r.1 == FilterToWindow(Table(stock.columns, s), Window(Some(lo), Some(hi))))
  {
    var n := Table(news.columns, NormalizeRows(news.rows));
    var s := Table(stock.columns, NormalizeRows(stock.rows));
    AlignedShape(n, s);
    AlignedEmptyNews(n, s);
    AlignedEmptyStock(n, s);
    AlignedRange(n, s);
    Aligned(n, s)
  }

  /** The steps of `align_dates` after normalisation: the common window, the
      empty result for an empty window, and the selection of both tables. */
  function Aligned(n: Table, s: Table): (Table, Table) {
    var w := CommonWindow(n.rows, s.rows);
    if Before(w.end, w.start) then (EmptyTable, EmptyTable)
    else (FilterToWindow(n, w), FilterToWindow(s, w))
  }

  /** Alignment invents no row and keeps the column names unless it returns the empty frames. */
  lemma AlignedShape(n: Table, s: Table)
    ensures var r := Aligned(n, s);
            (r == (EmptyTable, EmptyTable) || (r.0.columns == n.columns && r.1.columns == s.columns)) &&
            multiset(r.0.rows) <= multiset(n.rows) && multiset(r.1.rows) <= multiset(s.rows)
  {
  }

  /** A NaT start (no news rows) selects nothing on either side. */
  lemma AlignedEmptyNews(n: Table, s: Table)
    ensures |n.rows| == 0 ==> |Aligned(n, s).0.rows| == 0 && |Aligned(n, s).1.rows| == 0
  {
    WindowCases(n.rows, s.rows);
  }

  /** With no price rows the window is the news table's own range, which holds every news row. */
  lemma AlignedEmptyStock(n: Table, s: Table)
    ensures |n.rows| > 0 && |s.rows| == 0 ==> Aligned(n, s) == (n, Table(s.columns, []))
  {
    if |n.rows| > 0 && |s.rows| == 0 {
      var w := CommonWindow(n.rows, s.rows);
      WindowCases(n.rows, s.rows);
      Seqs.FilterKeepsAll(n.rows, (rec: Record) => InWindow(w, rec.date));
    }
  }

  /** With two non-empty tables the window is the intersection of their ranges. */
  lemma AlignedRange(n: Table, s: Table)
    ensures |n.rows| > 0 && |s.rows| > 0 ==>
              var lo, hi := LaterStart(n.rows, s.rows), EarlierEnd(n.rows, s.rows);
              (hi < lo ==> Aligned(n, s) == (EmptyTable, EmptyTable)) &&
              (lo <= hi ==>
                 KeepsRange(n.rows, Aligned(n, s).0.rows, lo, hi) && KeepsRange(s.rows, Aligned(n, s).1.rows, lo, hi) &&
                 Aligned(n, s).0 == FilterToWindow(n, Window(Some(lo), Some(hi))) &&
                 Aligned(n, s).1 == FilterToWindow(s, Window(Some(lo), Some(hi))))
  {
    if |n.rows| > 0 && |s.rows| > 0 {
      WindowCases(n.rows, s.rows);
      var lo, hi := LaterStart(n.rows, s.rows), EarlierEnd(n.rows, s.rows);
      if lo <= hi {
        var w := Window(Some(lo), Some(hi));
        assert Aligned(n, s) == (FilterToWindow(n, w), FilterToWindow(s, w));
        WindowKeepsRange(n, lo, hi);
        WindowKeepsRange(s, lo, hi);
      }
    }
  }

  /** Selecting a closed window of dates keeps exactly the rows dated in it. */
  lemma WindowKeepsRange(t: Table, lo: int, hi: int)
    ensures KeepsRange(t.rows, FilterToWindow(t, Window(Some(lo), Some(hi))).rows, lo, hi)
  {
  }

  /** For two loaded (hence normalised) non-empty tables, each aligned table
      keeps exactly its own rows dated between the later of the two first dates
      and the earlier of the two last dates, in order and unaltered; the
      outputs are empty when that range is empty. */
  lemma {:induction false} AlignDatesBounds(news: Table, stock: Table)
    requires |news.rows| > 0 && |stock.rows| > 0
    requires forall i :: 0 <= i < |news.rows| ==> IsDay(news.rows[i].date)
    requires forall i :: 0 <= i < |stock.rows| ==> IsDay(stock.rows[i].date)
    ensures var lo, hi := LaterStart(news.rows, stock.rows), EarlierEnd(news.rows, stock.rows);
            var r := AlignDates(news, stock);
            (hi < lo ==> |r.0.rows| == 0 && |r.1.rows| == 0) &&
            (lo <= hi ==>
               KeepsRange(news.rows, r.0.rows, lo, hi) && KeepsRange(stock.rows, r.1.rows, lo, hi) &&
               r.0 == FilterToWindow(news, Window(Some(lo), Some(hi))) &&
               r.1 == FilterToWindow(stock, Window(Some(lo), Some(hi))))
  {
    NormalizeRowsKeepsDays(news.rows);
    NormalizeRowsKeepsDays(stock.rows);
  }

  /** Aligning (B, A) computes the same window as aligning (A, B), so the rows
      kept from each table do not depend on the argument order. */
  lemma AlignDatesSymmetric(a: Table, b: Table)
    requires |a.rows| > 0 && |b.rows| > 0
    ensures AlignDates(a, b).0 == AlignDates(b, a).1
    ensures AlignDates(a, b).1 == AlignDates(b, a).0
  {
    CommonWindowSymmetric(NormalizeRows(a.rows), NormalizeRows(b.rows));
  }

  /** The first alignment of the example below: news {1, 5} and prices {3, 10}
      (in days) share the window [3, 5], keeping news {5} and prices {3}. */
  lemma AlignDatesExample()
    ensures AlignDates(Table([], [Record(SecondsPerDay, []), Record(5 * SecondsPerDay, [])]),
                       Table([], [Record(3 * SecondsPerDay, []), Record(10 * SecondsPerDay, [])]))
         == (Table([], [Record(5 * SecondsPerDay, [])]), Table([], [Record(3 * SecondsPerDay, [])]))
  {
    var d1, d3, d5, d10 := Record(SecondsPerDay, []), Record(3 * SecondsPerDay, []), Record(5 * SecondsPerDay, []), Record(10 * SecondsPerDay, []);
    var news := Table([], [d1, d5]);
    var stock := Table([], [d3, d10]);
    NormalizeRowsKeepsDays(news.rows);
    NormalizeRowsKeepsDays(stock.rows);
    assert LaterStart(news.rows, stock.rows) == 3 * SecondsPerDay;
    assert EarlierEnd(news.rows, stock.rows) == 5 * SecondsPerDay;
    var w := Window(Some(3 * SecondsPerDay), Some(5 * SecondsPerDay));
    assert news.rows == [d1] + [d5];
    assert stock.rows == [d3] + [d10];
    FilterToWindowConcat([], [d1], [d5], w);
    FilterToWindowConcat([], [d3], [d10], w);
    FilterToWindowSingle([], d1, w);
    FilterToWindowSingle([], d5, w);
    FilterToWindowSingle([], d3, w);
    FilterToWindowSingle([], d10, w);
  }

  /** News {5} and prices {3} (in days) have the empty window [5, 3]. */
  lemma AlignDatesDisjointExample()
    ensures AlignDates(Table([], [Record(5 * SecondsPerDay, [])]), Table([], [Record(3 * SecondsPerDay, [])]))
         == (EmptyTable, EmptyTable)
  {
    var n5, s3 := [Record(5 * SecondsPerDay, [])], [Record(3 * SecondsPerDay, [])];
    NormalizeRowsKeepsDays(n5);
    NormalizeRowsKeepsDays(s3);
    assert CommonWindow(n5, s3) == Window(Some(5 * SecondsPerDay), Some(3 * SecondsPerDay));
  }

  /** Re-aligning aligned tables can lose rows: news dated days 1 and 5 and
      prices dated days 3 and 10 align to news {5} and prices {3}, whose own
      window [5, 3] is empty. Only re-filtering to the same window is idempotent. */
  lemma AlignDatesNotIdempotent(news: Table, stock: Table)
    requires news == Table([], [Record(SecondsPerDay, []), Record(5 * SecondsPerDay, [])])
    requires stock == Table([], [Record(3 * SecondsPerDay, []), Record(10 * SecondsPerDay, [])])
    ensures |AlignDates(news, stock).0.rows| == 1
    ensures AlignDates(AlignDates(news, stock).0, AlignDates(news, stock).1) == (EmptyTable, EmptyTable)
  {
    AlignDatesExample();
    AlignDatesDisjointExample();
  }
}

=== FILE: frames.dfy ===
/** The tabular data model: a pandas DataFrame as columns of names and rows of
    cells. A `RawFrame` is a table as read from CSV; a `Table` is one whose date
    column has been located and parsed, so that each `Record` carries its date
    separately from the cells of the other columns. */
module Frames {
  import opened Optional
  import Strings

  /** A cell value after CSV type inference: NaN/empty, a number or text. */
  datatype Cell = Missing | Num(x: real) | Text(s: string)

  datatype RawFrame = RawFrame(columns: seq<string>, rows: seq<seq<Cell>>)

  /** One row of a dated table: its date (a naive timestamp in seconds) and one
      cell per entry of the table's `columns`. */
  datatype Record = Record(date: int, cells: seq<Cell>)

  /** A table with a `date` column; `columns` names the other columns. */
  datatype Table = Table(columns: seq<string>, rows: seq<Record>)

  /** `pd.DataFrame()`: no columns and no rows. */
  const EmptyTable := Table([], [])

  /** The cell of column `k`; a ragged row reads as missing. */
  function CellAt(cells: seq<Cell>, k: nat): Cell {
    if k < |cells| then cells[k] else Missing
  }

  /** The cells without column `k`. */
  function RemoveAt<T>(s: seq<T>, k: nat): (r: seq<T>)
    ensures k < |s| ==> |r| == |s| - 1 && forall i :: 0 <= i < k ==> r[i] == s[i]
    ensures k < |s| ==> forall i :: k < i < |s| ==> r[i - 1] == s[i]
    ensures k >= |s| ==> r == s
  {
    if k < |s| then s[..k] + s[k + 1..] else s
  }

  /** Position of the column whose name is exactly `name` (`name in df.columns`). */
  function Lookup(columns: seq<string>, name: string): (r: Option<nat>)
    ensures r.Some? ==> r.value < |columns| && columns[r.value] == name
    ensures r.None? <==> name !in columns
  {
    if |columns| == 0 then None
    else if columns[0] == name then Some(0)
    else match Lookup(columns[1..], name)
      case None => None
      case Some(k) => Some(k + 1)
  }

  /** Column `i` is a candidate: its lower-cased name contains `key`. */
  predicate Matches(columns: seq<string>, key: string, i: int)
    requires 0 <= i < |columns|
  {
    Strings.Contains(Strings.Lower(columns[i]), key)
  }

  /** `r` is the position of the first candidate column, or None when there is none. */
  ghost predicate IsFirstMatch(columns: seq<string>, key: string, r: Option<nat>) {
    match r
    case None => forall j :: 0 <= j < |columns| ==> !Matches(columns, key, j)
    case Some(i) =>
      i < |columns| && Matches(columns, key, i) &&
      forall j :: 0 <= j < i ==> !Matches(columns, key, j)
  }

  /** At most one answer is the first match. */
  lemma FirstMatchUnique(columns: seq<string>, key: string, r1: Option<nat>, r2: Option<nat>)
    requires IsFirstMatch(columns, key, r1) && IsFirstMatch(columns, key, r2)
    ensures r1 == r2
  {
  }

  /** The first column whose lower-cased name contains `key`, or None when no column does. */
  function FindColumn(columns: seq<string>, key: string): (r: Option<nat>)
    ensures IsFirstMatch(columns, key, r)
  {
    if |columns| == 0 then None
    else if Matches(columns, key, 0) then Some(0)
    else
      var rest := FindColumn(columns[1..], key);
      assert forall j :: 1 <= j < |columns| ==> (Matches(columns, key, j) <==> Matches(columns[1..], key, j - 1));
      match rest
      case None => None
      case Some(k) => Some(k + 1)
  }
}

=== FILE: optional.dfy ===
/** The option and result types used throughout the model: `Option` stands for a
    value that pandas would hold as NaN/NaT or a Python `None`, `Result` for an
    operation that raises. */
module Optional {

  datatype Option<+T> = None | Some(value: T)

  datatype Result<+R, +E> = Success(value: R) | Failure(error: E)
}

=== FILE: pipeline.dfy ===
/** The per-ticker orchestration of `main.py`: selecting the ticker's ratings,
    aligning them with its prices, scoring, joining on date, the skip gates,
    and the collection of successful tickers over a run. */
module Pipeline {
  import opened Optional
  import opened Frames
  import Strings
  import Seqs
  import opened DataLoader
  import CC = CorrelationCalculator
  import SA = SentimentAnalyzer

  const StockColumn := "stock"

  /** The fixed ticker universe of a run. */
  const Tickers: seq<string> := ["AAPL", "AMZN", "GOOG", "META", "MSFT", "NVDA"]

  /** Fewer joined days than this skip the ticker. */
  const MinCombinedDays := 5

  /** The ticker test of `analyze_stock`: the stock cell equals the symbol once
      both are upper-cased; a missing or numeric cell never matches. */
  predicate SameTicker(c: Cell, symbol: string) {
    c.Text? && Strings.Upper(c.s) == Strings.Upper(symbol)
  }

  /** The ratings rows whose stock column `k` names `symbol`, in order. */
  function RowsFor(rows: seq<Record>, k: nat, symbol: string): (r: seq<Record>)
    ensures forall i :: 0 <= i < |r| ==> SameTicker(CellAt(r[i].cells, k), symbol)
    ensures multiset(r) <= multiset(rows)
    ensures forall i :: 0 <= i < |rows| ==>
      multiset(r)[rows[i]] == if SameTicker(CellAt(rows[i].cells, k), symbol) then multiset(rows)[rows[i]] else 0
  {
    Seqs.FilterCounts(rows, (row: Record) => SameTicker(CellAt(row.cells, k), symbol));
    Seqs.Filter(rows, (row: Record) => SameTicker(CellAt(row.cells, k), symbol))
  }

  /** The selection works row by row: two blocks are selected separately and
      kept in order, and a single row is kept exactly when it names the ticker. */
  lemma RowsForConcat(a: seq<Record>, b: seq<Record>, k: nat, symbol: string)
    ensures RowsFor(a + b, k, symbol) == RowsFor(a, k, symbol) + RowsFor(b, k, symbol)
    ensures forall x :: RowsFor([x], k, symbol) == if SameTicker(CellAt(x.cells, k), symbol) then [x] else []
  {
    Seqs.FilterConcat(a, b, (row: Record) => SameTicker(CellAt(row.cells, k), symbol));
    forall x ensures RowsFor([x], k, symbol) == if SameTicker(CellAt(x.cells, k), symbol) then [x] else [] {
      assert [x][1..] == [];
    }
  }

  /** Step 2 of `analyze_stock`: the ticker's own ratings, or all of them when
      there is no stock column or no row names the ticker. */
  function FilterRatings(ratings: Table, symbol: string): (r: Table)
    ensures r.columns == ratings.columns
    ensures StockColumn !in ratings.columns ==> r == ratings
    ensures StockColumn in ratings.columns ==>
              exists k ::
                0 <= k < |ratings.columns| && ratings.columns[k] == StockColumn &&
                (forall j :: 0 <= j < k ==> ratings.columns[j] != StockColumn) &&
                ((forall i :: 0 <= i < |ratings.rows| ==> !SameTicker(CellAt(ratings.rows[i].cells, k), symbol))
                   ==> r == ratings) &&
                ((exists i :: 0 <= i < |ratings.rows| && SameTicker(CellAt(ratings.rows[i].cells, k), symbol))
                   ==> r.rows == RowsFor(ratings.rows, k, symbol))
  {
    match Lookup(ratings.columns, StockColumn)
    case None => ratings
    case Some(k) =>
      assert forall j :: 0 <= j < k ==> ratings.columns[j] != StockColumn by {
        LookupFirst(ratings.columns, StockColumn);
      }
      var mine := RowsFor(ratings.rows, k, symbol);
      if |mine| == 0 then
        assert forall i :: 0 <= i < |ratings.rows| ==> !SameTicker(CellAt(ratings.rows[i].cells, k), symbol);
        ratings
      else
        assert exists i :: 0 <= i < |ratings.rows| && SameTicker(CellAt(ratings.rows[i].cells, k), symbol) by {
          assert mine[0] in multiset(ratings.rows);
        }
        Table(ratings.columns, mine)
  }

  /** `Lookup` finds the first column of that name. */
  lemma {:induction false} LookupFirst(columns: seq<string>, name: string)
    requires Lookup(columns, name).Some?
    ensures forall j :: 0 <= j < Lookup(columns, name).value ==> columns[j] != name
  {
    if columns[0] != name {
      LookupFirst(columns[1..], name);
    }
  }

  /** One row of the merge in `analyze_stock`: a sentiment day beside a price row of the same date. */
  function Combine(s: SA.DailySentiment, p: CC.Priced): CC.CombinedRow {
    CC.CombinedRow(s.date, Some(s.avgPolarity), Some(s.avgCompound), s.positiveRatio, p.dailyReturn)
  }

  /** Selects the price rows dated `d`. */
  function OnDay(d: int): CC.Priced -> bool {
    (p: CC.Priced) => p.row.date == d
  }

  /** The rows joining one sentiment day with every price row of that date. */
  function JoinDay(s: SA.DailySentiment, priced: seq<CC.Priced>): (r: seq<CC.CombinedRow>)
    ensures forall x :: x in r <==> exists j :: 0 <= j < |priced| && priced[j].row.date == s.date && x == Combine(s, priced[j])
  {
    if |priced| == 0 then []
    else
      var rest := JoinDay(s, priced[1..]);
      assert forall j :: 1 <= j < |priced| ==> priced[j] == priced[1..][j - 1];
      (if priced[0].row.date == s.date then [Combine(s, priced[0])] else []) + rest
  }

  /** A sentiment day joins once with each price row of its date, in price order. */
  lemma {:induction false} JoinDayOnePerRow(s: SA.DailySentiment, priced: seq<CC.Priced>)
    ensures var same := Seqs.Filter(priced, OnDay(s.date));
            |JoinDay(s, priced)| == |same| &&
            forall k :: 0 <= k < |same| ==> JoinDay(s, priced)[k] == Combine(s, same[k])
  {
    if |priced| > 0 {
      JoinDayOnePerRow(s, priced[1..]);
      var rest := JoinDay(s, priced[1..]);
      var same, sameRest := Seqs.Filter(priced, OnDay(s.date)), Seqs.Filter(priced[1..], OnDay(s.date));
      if priced[0].row.date == s.date {
        assert same == [priced[0]] + sameRest;
        assert JoinDay(s, priced) == [Combine(s, priced[0])] + rest;
        forall k | 1 <= k < |same| ensures JoinDay(s, priced)[k] == Combine(s, same[k]) {
          assert same[k] == sameRest[k - 1];
        }
      } else {
        assert same == sameRest;
        assert JoinDay(s, priced) == rest;
      }
    }
  }

  /** The inner join on exact date equality, in the order of the sentiment days. */
  function JoinOnDate(daily: seq<SA.DailySentiment>, priced: seq<CC.Priced>): (r: seq<CC.CombinedRow>)
    ensures forall x :: x in r <==>
      exists i, j :: 0 <= i < |daily| && 0 <= j < |priced| && daily[i].date == priced[j].row.date && x == Combine(daily[i], priced[j])
  {
    if |daily| == 0 then []
    else
      var here, rest := JoinDay(daily[0], priced), JoinOnDate(daily[1..], priced);
      assert forall i :: 1 <= i < |daily| ==> daily[i] == daily[1..][i - 1];
      assert forall x :: x in rest ==> exists i, j :: 0 <= i < |daily| && 0 <= j < |priced| && daily[i].date == priced[j].row.date && x == Combine(daily[i], priced[j]) by {
        forall x | x in rest
          ensures exists i, j :: 0 <= i < |daily| && 0 <= j < |priced| && daily[i].date == priced[j].row.date && x == Combine(daily[i], priced[j])
        {
          var i, j :| 0 <= i < |daily[1..]| && 0 <= j < |priced| && daily[1..][i].date == priced[j].row.date && x == Combine(daily[1..][i], priced[j]);
          assert daily[i + 1] == daily[1..][i];
        }
      }
      here + rest
  }

  /** Selects the price rows dated on one of the sentiment days. */
  function OnAnyDay(daily: seq<SA.DailySentiment>): CC.Priced -> bool {
    (p: CC.Priced) => exists i :: 0 <= i < |daily| && daily[i].date == p.row.date
  }

  /** With one sentiment row per date (as `groupby` produces), the join has
      exactly one row per price row whose date is a sentiment day: this is the
      number the five-day gate and `total_days` count. */
  lemma {:induction false} JoinOnDateSize(daily: seq<SA.DailySentiment>, priced: seq<CC.Priced>)
    requires forall i, j :: 0 <= i < j < |daily| ==> daily[i].date != daily[j].date
    ensures |JoinOnDate(daily, priced)| == Seqs.Count(priced, OnAnyDay(daily))
  {
    if |daily| == 0 {
      Seqs.FilterKeepsNone(priced, OnAnyDay(daily));
      Seqs.FilterLength(priced, OnAnyDay(daily));
    } else {
      var rest := daily[1..];
      JoinOnDateSize(rest, priced);
      JoinDayOnePerRow(daily[0], priced);
      Seqs.FilterLength(priced, OnDay(daily[0].date));
      forall k | 0 <= k < |priced|
        ensures (OnAnyDay(daily)(priced[k]) <==> OnDay(daily[0].date)(priced[k]) || OnAnyDay(rest)(priced[k]))
        ensures !(OnDay(daily[0].date)(priced[k]) && OnAnyDay(rest)(priced[k]))
      {
        var d := priced[k].row.date;
        if i :| 0 <= i < |daily| && daily[i].date == d {
          if i > 0 {
            assert rest[i - 1] == daily[i];
          }
        }
        if i :| 0 <= i < |rest| && rest[i].date == d {
          assert daily[i + 1] == rest[i];
        }
      }
      Seqs.CountSplit(priced, OnAnyDay(daily), OnDay(daily[0].date), OnAnyDay(rest));
    }
  }

  /** What `analyze_stock` returns for a ticker it does not skip. */
  datatype Analysis = Analysis(combined: seq<CC.CombinedRow>, correlations: Option<CC.CorrelationResults>)

  /** The collaborators of a run the model does not interpret: the NLP
      scorers, the statistics, and whether the dashboard and the results CSV
      of a ticker were written without raising. */
  datatype Env = Env(scorers: SA.Scorers, stats: CC.Stats, outputsWritten: string -> bool)

  /** `analyze_stock(stock_symbol, ratings_df)`; every exception it catches is a
      skip (None). `stock` is None when the price file is missing or unreadable. */
  function AnalyzeStock(symbol: string, ratings: Loaded, stock: Option<Loaded>, env: Env): (r: Option<Analysis>)
    ensures stock.None? ==> r.None?
    ensures r.Some? ==> ratings.Dated? && stock.value.Dated?
    ensures r.Some? ==>
              var aligned := AlignDates(FilterRatings(ratings.table, symbol), stock.value.table);
              var priced := CC.DailyReturns(aligned.1);
              var scored := SA.AnalyzeDataframe(aligned.0, env.scorers);
              priced.Success? && scored.Success? &&
              r.value.combined == JoinOnDate(SA.AggregateDaily(scored.value), priced.value)
    ensures r.Some? ==> |r.value.combined| >= MinCombinedDays
    ensures r.Some? ==> r.value.correlations == CC.CalculateCorrelations(CC.Combined(true, r.value.combined), env.stats)
    ensures r.Some? ==> env.outputsWritten(symbol)
  {
    match stock
    case None => None
    case Some(Undated(_)) => None
    case Some(Dated(prices)) =>
      match ratings
      case Undated(_) => None
      case Dated(news) =>
        var aligned := AlignDates(FilterRatings(news, symbol), prices);
        if |aligned.0.rows| == 0 || |aligned.1.rows| == 0 then None
        else match CC.DailyReturns(aligned.1)
          case Failure(_) => None
          case Success(priced) =>
            match SA.AnalyzeDataframe(aligned.0, env.scorers)
            case Failure(_) => None
            case Success(scored) =>
              var combined := JoinOnDate(SA.AggregateDaily(scored), priced);
              if |combined| < MinCombinedDays then None
              else
                var results := CC.CalculateCorrelations(CC.Combined(true, combined), env.stats);
                if env.outputsWritten(symbol) then Some(Analysis(combined, results)) else None
  }

  /** A ticker is analysed exactly when every stage gets through: both sides
      of the alignment are non-empty, the returns and the sentiment are
      computed without error, the join has at least five rows, and the
      ticker's outputs are written. */
  lemma AnalyzeStockSucceeds(symbol: string, news: Table, prices: Table, env: Env)
    ensures var aligned := AlignDates(FilterRatings(news, symbol), prices);
            var priced := CC.DailyReturns(aligned.1);
            var scored := SA.AnalyzeDataframe(aligned.0, env.scorers);
            AnalyzeStock(symbol, Dated(news), Some(Dated(prices)), env).Some? <==>
              |aligned.0.rows| > 0 && |aligned.1.rows| > 0 &&
              priced.Success? && scored.Success? &&
              |JoinOnDate(SA.AggregateDaily(scored.value), priced.value)| >= MinCombinedDays &&
              env.outputsWritten(symbol)
  {
  }

  /** Ratings or prices that have no date column skip the ticker. */
  lemma AnalyzeStockNeedsDates(symbol: string, ratings: Loaded, stock: Option<Loaded>, env: Env)
    requires ratings.Undated? || (stock.Some? && stock.value.Undated?)
    ensures AnalyzeStock(symbol, ratings, stock, env).None?
  {
  }

  /** A ticker whose ratings and prices do not overlap is skipped. */
  lemma AnalyzeStockSkipsEmptyAlignment(symbol: string, news: Table, prices: Table, env: Env)
    requires var aligned := AlignDates(FilterRatings(news, symbol), prices);
             |aligned.0.rows| == 0 || |aligned.1.rows| == 0
    ensures AnalyzeStock(symbol, Dated(news), Some(Dated(prices)), env).None?
  {
  }

  /** A price table without a close-like column skips the ticker once alignment is non-empty. */
  lemma AnalyzeStockSkipsWithoutClose(symbol: string, news: Table, prices: Table, env: Env)
    requires forall j :: 0 <= j < |prices.columns| ==> !Matches(prices.columns, "close", j)
    ensures AnalyzeStock(symbol, Dated(news), Some(Dated(prices)), env).None?
  {
    AnalyzeStockSucceeds(symbol, news, prices, env);
    var aligned := AlignDates(FilterRatings(news, symbol), prices);
    if |aligned.1.rows| > 0 {
      assert aligned.1.columns == prices.columns;
      assert CC.DailyReturns(aligned.1) == Failure(CC.NoCloseColumn);
    }
  }

  /** The inner join keeps only shared days: every joined day is the day of
      some rating of the ticker and of some price row. */
  lemma AnalyzeStockJoinsSharedDays(symbol: string, news: Table, prices: Table, env: Env)
    ensures var ratings := FilterRatings(news, symbol).rows;
            var r := AnalyzeStock(symbol, Dated(news), Some(Dated(prices)), env);
            r.Some? ==> forall x :: x in r.value.combined ==>
              (exists i :: 0 <= i < |ratings| && Normalize(ratings[i].date) == x.date) &&
              (exists j :: 0 <= j < |prices.rows| && Normalize(prices.rows[j].date) == x.date)
  {
    var ratings := FilterRatings(news, symbol);
    var aligned := AlignDates(ratings, prices);
    if AnalyzeStock(symbol, Dated(news), Some(Dated(prices)), env).None? {
      return;
    }
    var priced := CC.DailyReturns(aligned.1).value;
    var scored := SA.AnalyzeDataframe(aligned.0, env.scorers).value;
    var combined := JoinOnDate(SA.AggregateDaily(scored), priced);
    assert AnalyzeStock(symbol, Dated(news), Some(Dated(prices)), env).value.combined == combined;
    JoinedDaysAligned(aligned, scored, priced);
    forall x | x in combined
      ensures (exists i :: 0 <= i < |ratings.rows| && Normalize(ratings.rows[i].date) == x.date)
      ensures (exists j :: 0 <= j < |prices.rows| && Normalize(prices.rows[j].date) == x.date)
    {
      RowIsShared(ratings, prices, x.date);
    }
  }

  /** Every day of the join of the scored news with the priced rows is the
      date of an aligned news row and of an aligned price row. */
  lemma JoinedDaysAligned(aligned: (Table, Table), scored: seq<SA.Scored>, priced: seq<CC.Priced>)
    requires |scored| == |aligned.0.rows|
    requires forall k :: 0 <= k < |scored| ==> scored[k].row == aligned.0.rows[k]
    requires multiset(CC.RowsOf(priced)) == multiset(aligned.1.rows)
    ensures forall x :: x in JoinOnDate(SA.AggregateDaily(scored), priced) ==>
              (exists a :: 0 <= a < |aligned.0.rows| && aligned.0.rows[a].date == x.date) &&
              (exists b :: 0 <= b < |aligned.1.rows| && aligned.1.rows[b].date == x.date)
  {
    var daily := SA.AggregateDaily(scored);
    var dates := SA.DatesOf(scored);
    assert forall i :: 0 <= i < |daily| ==> daily[i].date in dates;
    JoinDays(daily, priced);
    forall x | x in JoinOnDate(daily, priced)
      ensures exists a :: 0 <= a < |aligned.0.rows| && aligned.0.rows[a].date == x.date
      ensures exists b :: 0 <= b < |aligned.1.rows| && aligned.1.rows[b].date == x.date
    {
      var k :| 0 <= k < |dates| && dates[k] == x.date;
      assert aligned.0.rows[k].date == x.date;
      var j :| 0 <= j < |priced| && priced[j].row.date == x.date;
      PricedRowIsAligned(aligned.1.rows, priced, j);
    }
  }

  /** A joined row's date is the date of one of the sentiment days and of one of the priced rows. */
  lemma JoinDays(daily: seq<SA.DailySentiment>, priced: seq<CC.Priced>)
    ensures forall x :: x in JoinOnDate(daily, priced) ==>
              (exists i :: 0 <= i < |daily| && daily[i].date == x.date) &&
              (exists j :: 0 <= j < |priced| && priced[j].row.date == x.date)
  {
    forall x | x in JoinOnDate(daily, priced)
      ensures exists i :: 0 <= i < |daily| && daily[i].date == x.date
      ensures exists j :: 0 <= j < |priced| && priced[j].row.date == x.date
    {
      var i, j :| 0 <= i < |daily| && 0 <= j < |priced| && daily[i].date == priced[j].row.date && x == Combine(daily[i], priced[j]);
    }
  }

  /** The joined table of a successful analysis has one row per price row
      dated on a sentiment day: the five-day gate counts those price rows. */
  lemma AnalyzeStockJoinSize(symbol: string, news: Table, prices: Table, env: Env)
    ensures var aligned := AlignDates(FilterRatings(news, symbol), prices);
            var priced := CC.DailyReturns(aligned.1);
            var scored := SA.AnalyzeDataframe(aligned.0, env.scorers);
            var r := AnalyzeStock(symbol, Dated(news), Some(Dated(prices)), env);
            r.Some? ==>
              (priced.Success? && scored.Success? &&
               |r.value.combined| == Seqs.Count(priced.value, OnAnyDay(SA.AggregateDaily(scored.value))) >= MinCombinedDays)
  {
    var aligned := AlignDates(FilterRatings(news, symbol), prices);
    var priced := CC.DailyReturns(aligned.1);
    var scored := SA.AnalyzeDataframe(aligned.0, env.scorers);
    var r := AnalyzeStock(symbol, Dated(news), Some(Dated(prices)), env);
    if r.Some? {
      SA.AggregateDailyDistinct(scored.value);
      JoinOnDateSize(SA.AggregateDaily(scored.value), priced.value);
    }
  }

  /** A priced row is one of the rows it was computed from. */
  lemma PricedRowIsAligned(rows: seq<Record>, priced: seq<CC.Priced>, j: nat)
    requires multiset(CC.RowsOf(priced)) == multiset(rows)
    requires j < |priced|
    ensures exists b :: 0 <= b < |rows| && rows[b] == priced[j].row
  {
    assert priced[j].row == CC.RowsOf(priced)[j];
    assert priced[j].row in multiset(rows);
    var b :| 0 <= b < |rows| && rows[b] == priced[j].row;
  }

  /** A date of an aligned row is the normalised date of some input row. */
  lemma RowIsShared(news: Table, stock: Table, d: int)
    ensures var aligned := AlignDates(news, stock);
            (exists a :: 0 <= a < |aligned.0.rows| && aligned.0.rows[a].date == d) ==>
              exists i :: 0 <= i < |news.rows| && Normalize(news.rows[i].date) == d
    ensures var aligned := AlignDates(news, stock);
            (exists b :: 0 <= b < |aligned.1.rows| && aligned.1.rows[b].date == d) ==>
              exists j :: 0 <= j < |stock.rows| && Normalize(stock.rows[j].date) == d
  {
    var aligned := AlignDates(news, stock);
    assert multiset(aligned.0.rows) <= multiset(NormalizeRows(news.rows));
    assert multiset(aligned.1.rows) <= multiset(NormalizeRows(stock.rows));
    DateFromInput(aligned.0.rows, news.rows, d);
    DateFromInput(aligned.1.rows, stock.rows, d);
  }

  /** A row drawn from the normalised rows of `input` carries the normalised date of one of them. */
  lemma DateFromInput(output: seq<Record>, input: seq<Record>, d: int)
    requires multiset(output) <= multiset(NormalizeRows(input))
    ensures (exists a :: 0 <= a < |output| && output[a].date == d) ==>
              exists i :: 0 <= i < |input| && Normalize(input[i].date) == d
  {
    var n := NormalizeRows(input);
    if a :| 0 <= a < |output| && output[a].date == d {
      assert output[a] in multiset(n);
      var i :| 0 <= i < |n| && n[i] == output[a];
      assert Normalize(input[i].date) == d;
    }
  }

  /** The tickers of a result list, in order. */
  function Keys(results: seq<(string, Analysis)>): (r: seq<string>)
    ensures |r| == |results|
    ensures forall i :: 0 <= i < |results| ==> r[i] == results[i].0
  {
    seq(|results|, i requires 0 <= i < |results| => results[i].0)
  }

  /** The tickers an analysis function does not skip. */
  function Succeeded(analyze: string -> Option<Analysis>): string -> bool {
    (t: string) => analyze(t).Some?
  }

  /** The loop of `main()`: analyses each ticker in turn and keeps, in order,
      those whose analysis succeeded, each with its analysis. */
  method CollectResults(tickers: seq<string>, analyze: string -> Option<Analysis>)
    returns (results: seq<(string, Analysis)>)
    ensures Keys(results) == Seqs.Filter(tickers, Succeeded(analyze))
    ensures forall i :: 0 <= i < |results| ==> analyze(results[i].0) == Some(results[i].1)
  {
    var succeeded := Succeeded(analyze);
    results := [];
    var n := 0;
    while n < |tickers|
      invariant 0 <= n <= |tickers|
      invariant Keys(results) == Seqs.Filter(tickers[..n], succeeded)
      invariant forall i :: 0 <= i < |results| ==> analyze(results[i].0) == Some(results[i].1)
    {
      var symbol := tickers[n];
      var result := analyze(symbol);
      assert tickers[..n + 1] == tickers[..n] + [symbol];
      Seqs.FilterSnoc(tickers[..n], symbol, succeeded);
      if result.Some? {
        assert Keys(results + [(symbol, result.value)]) == Keys(results) + [symbol];
        results := results + [(symbol, result.value)];
      }
      n := n + 1;
    }
    assert tickers[..n] == tickers;
  }

  /** The per-ticker analysis of a run over loaded ratings. */
  function Analyzer(ratings: Loaded, stocks: string -> Option<Loaded>, env: Env): string -> Option<Analysis> {
    (t: string) => AnalyzeStock(t, ratings, stocks(t), env)
  }

  /** `main()`: None when the ratings fail to load; otherwise, in ticker order,
      every ticker of the fixed universe whose analysis succeeded, with its analysis. */
  method Run(ratings: Option<Loaded>, stocks: string -> Option<Loaded>, env: Env)
    returns (r: Option<seq<(string, Analysis)>>)
    ensures r.None? <==> ratings.None?
    ensures r.Some? ==> Keys(r.value) == Seqs.Filter(Tickers, Succeeded(Analyzer(ratings.value, stocks, env)))
    ensures r.Some? ==> forall i :: 0 <= i < |r.value| ==>
      AnalyzeStock(r.value[i].0, ratings.value, stocks(r.value[i].0), env) == Some(r.value[i].1)
  {
    if ratings.None? {
      return None;
    }
    var results := CollectResults(Tickers, Analyzer(ratings.value, stocks, env));
    return Some(results);
  }
}

=== FILE: sentiment_analyzer.dfy ===
/** `SentimentAnalyzer`: per-headline scoring, the three-way label and the
    per-date aggregation. TextBlob and VADER are parameters (`Scorers`). */
module SentimentAnalyzer {
  import opened Optional
  import opened Frames
  import Seqs

  /** TextBlob polarity and subjectivity and VADER compound score of one text. */
  datatype Scores = Scores(polarity: real, subjectivity: real, compound: real)

  const NoSentiment := Scores(0.0, 0.0, 0.0)

  /** The scorers applied to `str(text)`; `render` is `str` of a number. */
  datatype Scorers = Scorers(
    polarity: string -> real,
    subjectivity: string -> real,
    compound: string -> real,
    render: real -> string)

  /** The documented ranges of the scores. */
  predicate InRange(s: Scores) {
    -1.0 <= s.polarity <= 1.0 && 0.0 <= s.subjectivity <= 1.0 && -1.0 <= s.compound <= 1.0
  }

  /** Scorers that keep to the documented ranges on every text. */
  ghost predicate WellBehaved(sc: Scorers) {
    forall t :: InRange(Scores(sc.polarity(t), sc.subjectivity(t), sc.compound(t)))
  }

  /** `analyze_sentiment`: missing or empty text scores zero everywhere; any
      other cell is scored as its string form. */
  function AnalyzeSentiment(text: Cell, sc: Scorers): (s: Scores)
    ensures text.Missing? || text == Text("") ==> s == NoSentiment
    ensures text.Text? && text.s != "" ==>
      s == Scores(sc.polarity(text.s), sc.subjectivity(text.s), sc.compound(text.s))
    ensures text.Num? ==>
      var u := sc.render(text.x);
      s == Scores(sc.polarity(u), sc.subjectivity(u), sc.compound(u))
    ensures WellBehaved(sc) ==> InRange(s)
  {
    match text
    case Missing => NoSentiment
    case Text(t) => if t == "" then NoSentiment else Scores(sc.polarity(t), sc.subjectivity(t), sc.compound(t))
    case Num(x) =>
      var t := sc.render(x);
      Scores(sc.polarity(t), sc.subjectivity(t), sc.compound(t))
  }

  datatype Label = Positive | Negative | Neutral

  /** The `sentiment_label` rule: the pivot is 0.5, not 0. */
  function Classify(polarity: real): (l: Label)
    ensures l == Positive <==> polarity > 0.5
    ensures l == Negative <==> polarity < 0.5
    ensures l == Neutral <==> polarity == 0.5
  {
    if polarity > 0.5 then Positive else if polarity < 0.5 then Negative else Neutral
  }

  /** A news row with the columns `analyze_dataframe` adds. */
  datatype Scored = Scored(row: Record, scores: Scores, category: Label)

  const TextColumn := "headline"

  /** `df[text_column]` of a table without that column. */
  datatype KeyError = KeyError(column: string)

  /** `analyze_dataframe(df)`: scores and labels every row, leaving the row itself unchanged. */
  function AnalyzeDataframe(t: Table, sc: Scorers): (r: Result<seq<Scored>, KeyError>)
    ensures r.Failure? <==> TextColumn !in t.columns
    ensures r.Success? ==> |r.value| == |t.rows|
    ensures r.Success? ==> forall i :: 0 <= i < |t.rows| ==>
      r.value[i].row == t.rows[i] &&
      r.value[i].category == Classify(r.value[i].scores.polarity)
    ensures r.Success? ==>
              exists k ::
                0 <= k < |t.columns| && t.columns[k] == TextColumn &&
                forall i :: 0 <= i < |t.rows| ==> r.value[i].scores == AnalyzeSentiment(CellAt(t.rows[i].cells, k), sc)
  {
    match Lookup(t.columns, TextColumn)
    case None => Failure(KeyError(TextColumn))
    case Some(k) =>
      Success(seq(|t.rows|, i requires 0 <= i < |t.rows| =>
        var s := AnalyzeSentiment(CellAt(t.rows[i].cells, k), sc);
        Scored(t.rows[i], s, Classify(s.polarity))))
  }

  /** One row of `aggregate_daily_sentiment` (the standard deviations are not modelled). */
  datatype DailySentiment = DailySentiment(
    date: int,
    avgPolarity: real,
    articleCount: nat,
    avgCompound: real,
    positiveRatio: real)

  function DatesOf(scored: seq<Scored>): (r: seq<int>)
    ensures |r| == |scored|
    ensures forall i :: 0 <= i < |scored| ==> r[i] == scored[i].row.date
  {
    seq(|scored|, i requires 0 <= i < |scored| => scored[i].row.date)
  }

  /** The rows of one `groupby('date')` group. */
  function Group(scored: seq<Scored>, d: int): seq<Scored> {
    Seqs.Filter(scored, (s: Scored) => s.row.date == d)
  }

  predicate IsPositive(s: Scored) {
    s.category == Positive
  }

  function SumPolarity(g: seq<Scored>): real {
    if |g| == 0 then 0.0 else g[0].scores.polarity + SumPolarity(g[1..])
  }

  function SumCompound(g: seq<Scored>): real {
    if |g| == 0 then 0.0 else g[0].scores.compound + SumCompound(g[1..])
  }

  /** The size of a date's group is the number of times that date occurs. */
  lemma {:induction false} GroupSize(scored: seq<Scored>, d: int)
    ensures |Group(scored, d)| == multiset(DatesOf(scored))[d]
  {
    if |scored| > 0 {
      GroupSize(scored[1..], d);
      var first := scored[0].row.date;
      assert |Group(scored, d)| == (if first == d then 1 else 0) + |Group(scored[1..], d)|;
      assert DatesOf(scored) == [first] + DatesOf(scored[1..]);
      assert multiset(DatesOf(scored))[d] == multiset([first])[d] + multiset(DatesOf(scored[1..]))[d];
    }
  }

  /** A share `x / n` of a positive count lies in [0, 1] when `x` is a part of `n`. */
  function Share(x: real, n: real): (q: real)
    requires n > 0.0
    ensures 0.0 <= x <= n ==> 0.0 <= q <= 1.0
    ensures q * n == x
  {
    assert x / n * n == x;
    x / n
  }

  /** `a` is the aggregate of the records dated `a.date`: their number (the
      occurrences of the date), the share of positive labels among them, and
      the mean polarity and compound score. */
  ghost predicate Aggregates(scored: seq<Scored>, a: DailySentiment) {
    var g := Group(scored, a.date);
    var n := a.articleCount as real;
    && a.articleCount == multiset(DatesOf(scored))[a.date] > 0
    && 0.0 <= a.positiveRatio <= 1.0
    && a.positiveRatio == Seqs.Count(g, IsPositive) as real / n
    && a.avgPolarity == SumPolarity(g) / n
    && a.avgCompound == SumCompound(g) / n
  }

  /** The aggregate of date `d`, which occurs in `scored`. */
  function Summarize(scored: seq<Scored>, d: int): (r: DailySentiment)
    requires d in DatesOf(scored)
    ensures r.date == d
    ensures Aggregates(scored, r)
  {
    var g := Group(scored, d);
    GroupSize(scored, d);
    assert d in multiset(DatesOf(scored));
    Seqs.CountAtMostLength(g, IsPositive);
    var n := |g| as real;
    DailySentiment(
      d,
      SumPolarity(g) / n,
      |g|,
      SumCompound(g) / n,
      Share(Seqs.Count(g, IsPositive) as real, n))
  }

  /** `aggregate_daily_sentiment`: one row per distinct date, in date order. */
  function AggregateDaily(scored: seq<Scored>): (r: seq<DailySentiment>)
    ensures Seqs.StrictlyIncreasing(seq(|r|, i requires 0 <= i < |r| => r[i].date))
    ensures forall d :: (exists i :: 0 <= i < |r| && r[i].date == d) <==> d in DatesOf(scored)
    ensures forall i :: 0 <= i < |r| ==> Aggregates(scored, r[i])
  {
    var days := Seqs.SortedDistinct(DatesOf(scored));
    assert forall i :: 0 <= i < |days| ==> days[i] in DatesOf(scored) by {
      forall i | 0 <= i < |days| ensures days[i] in DatesOf(scored) {
        assert days[i] in days;
      }
    }
    var r := seq(|days|, i requires 0 <= i < |days| => Summarize(scored, days[i]));
    assert seq(|r|, i requires 0 <= i < |r| => r[i].date) == days;
    assert forall d :: (exists i :: 0 <= i < |r| && r[i].date == d) <==> d in days by {
      forall d ensures (exists i :: 0 <= i < |r| && r[i].date == d) <==> d in days {
        if d in days {
          var i :| 0 <= i < |days| && days[i] == d;
          assert r[i].date == d;
        }
      }
    }
    r
  }

  /** The aggregated days have pairwise distinct dates: one row per date. */
  lemma AggregateDailyDistinct(scored: seq<Scored>)
    ensures var r := AggregateDaily(scored);
            forall i, j :: 0 <= i < j < |r| ==> r[i].date != r[j].date
  {
    var r := AggregateDaily(scored);
    var days := seq(|r|, i requires 0 <= i < |r| => r[i].date);
    forall i, j | 0 <= i < j < |r| ensures r[i].date != r[j].date {
      assert days[i] < days[j];
    }
  }
}

=== FILE: seqs.dfy ===
/** Generic sequence operations used to model pandas boolean-mask filtering and
    sorting: `Filter` keeps the rows a predicate selects, in order; `SortBy` is a
    stable ordering on an integer key. */
module Seqs {

  /** The rows of `s` that satisfy `p`, in their original order (`df[mask]`). */
  function Filter<T>(s: seq<T>, p: T -> bool): (r: seq<T>)
    ensures |r| <= |s|
    ensures forall i :: 0 <= i < |r| ==> p(r[i])
    ensures forall i :: 0 <= i < |r| ==> r[i] in s
    ensures forall i :: 0 <= i < |s| && p(s[i]) ==> s[i] in r
  {
    if |s| == 0 then []
    else
      assert s == [s[0]] + s[1..];
      if p(s[0]) then [s[0]] + Filter(s[1..], p) else Filter(s[1..], p)
  }

  /** Number of elements of `s` satisfying `p`. */
  function Count<T>(s: seq<T>, p: T -> bool): nat {
    if |s| == 0 then 0 else (if p(s[0]) then 1 else 0) + Count(s[1..], p)
  }

  /** No more elements satisfy `p` than `s` has. */
  lemma {:induction false} CountAtMostLength<T>(s: seq<T>, p: T -> bool)
    ensures Count(s, p) <= |s|
  {
    if |s| > 0 {
      CountAtMostLength(s[1..], p);
    }
  }

  /** Filtering keeps exactly the counted elements. */
  lemma {:induction false} FilterLength<T>(s: seq<T>, p: T -> bool)
    ensures |Filter(s, p)| == Count(s, p)
  {
    if |s| > 0 {
      FilterLength(s[1..], p);
    }
  }

  /** Filtering distributes over concatenation: it keeps the relative order of rows. */
  lemma {:induction false} FilterConcat<T>(a: seq<T>, b: seq<T>, p: T -> bool)
    ensures Filter(a + b, p) == Filter(a, p) + Filter(b, p)
  {
    if |a| > 0 {
      assert (a + b)[1..] == a[1..] + b;
      FilterConcat(a[1..], b, p);
    } else {
      assert a + b == b;
    }
  }

  /** Filtering keeps every selected element as often as it occurs, and no other:
      nothing is doubled and nothing else is added. */
  lemma {:induction false} FilterCounts<T>(s: seq<T>, p: T -> bool)
    ensures multiset(Filter(s, p)) <= multiset(s)
    ensures forall x :: multiset(Filter(s, p))[x] == if p(x) then multiset(s)[x] else 0
  {
    if |s| > 0 {
      FilterCounts(s[1..], p);
      assert s == [s[0]] + s[1..];
      assert multiset(Filter(s, p)) == (if p(s[0]) then multiset{s[0]} else multiset{}) + multiset(Filter(s[1..], p));
    }
  }

  /** Counting with a predicate that splits into two exclusive cases adds the two counts. */
  lemma {:induction false} CountSplit<T>(s: seq<T>, p: T -> bool, q: T -> bool, r: T -> bool)
    requires forall i :: 0 <= i < |s| ==> (p(s[i]) <==> q(s[i]) || r(s[i])) && !(q(s[i]) && r(s[i]))
    ensures Count(s, p) == Count(s, q) + Count(s, r)
  {
    if |s| > 0 {
      CountSplit(s[1..], p, q, r);
    }
  }

  /** Filtering a sequence extended by one element extends the filtered sequence
      by that element exactly when it passes. */
  lemma FilterSnoc<T>(s: seq<T>, x: T, p: T -> bool)
    ensures Filter(s + [x], p) == Filter(s, p) + (if p(x) then [x] else [])
  {
    FilterConcat(s, [x], p);
    assert [x][1..] == [];
  }

  /** A filter that every row passes changes nothing. */
  lemma {:induction false} FilterKeepsAll<T>(s: seq<T>, p: T -> bool)
    requires forall i :: 0 <= i < |s| ==> p(s[i])
    ensures Filter(s, p) == s
  {
    if |s| > 0 {
      FilterKeepsAll(s[1..], p);
      assert s == [s[0]] + s[1..];
    }
  }

  /** Filtering twice with the same predicate is filtering once. */
  lemma FilterIdempotent<T>(s: seq<T>, p: T -> bool)
    ensures Filter(Filter(s, p), p) == Filter(s, p)
  {
    FilterKeepsAll(Filter(s, p), p);
  }

  /** A filter that no row passes leaves nothing. */
  lemma {:induction false} FilterKeepsNone<T>(s: seq<T>, p: T -> bool)
    requires forall i :: 0 <= i < |s| ==> !p(s[i])
    ensures Filter(s, p) == []
  {
    if |s| > 0 {
      FilterKeepsNone(s[1..], p);
    }
  }

  /** `s` is in non-decreasing order of `key`. */
  ghost predicate SortedBy<T>(s: seq<T>, key: T -> int) {
    forall i, j :: 0 <= i < j < |s| ==> key(s[i]) <= key(s[j])
  }

  /** Inserts `x` into a sorted sequence after every element with an equal or smaller key. */
  function InsertBy<T>(x: T, s: seq<T>, key: T -> int): (r: seq<T>)
    requires SortedBy(s, key)
    ensures SortedBy(r, key)
    ensures multiset(r) == multiset(s) + multiset{x}
    ensures |r| == |s| + 1
  {
    if |s| == 0 then [x]
    else if key(x) < key(s[0]) then
      [x] + s
    else
      var rest := InsertBy(x, s[1..], key);
      assert s == [s[0]] + s[1..];
      BoundedBelow(key(s[0]), x, s[1..], rest, key);
      SortedCons(s[0], rest, key);
      [s[0]] + rest
  }

  /** A reordering of `pool` plus `x` keeps every lower bound of both. */
  lemma BoundedBelow<T>(lo: int, x: T, pool: seq<T>, r: seq<T>, key: T -> int)
    requires multiset(r) == multiset(pool) + multiset{x}
    requires lo <= key(x)
    requires forall i :: 0 <= i < |pool| ==> lo <= key(pool[i])
    ensures forall i :: 0 <= i < |r| ==> lo <= key(r[i])
  {
    forall i | 0 <= i < |r| ensures lo <= key(r[i]) {
      assert r[i] in multiset(r);
      if r[i] != x {
        assert r[i] in multiset(pool);
        var m :| 0 <= m < |pool| && pool[m] == r[i];
      }
    }
  }

  /** A sorted sequence stays sorted behind an element no larger than any of it. */
  lemma SortedCons<T>(y: T, s: seq<T>, key: T -> int)
    requires SortedBy(s, key)
    requires forall i :: 0 <= i < |s| ==> key(y) <= key(s[i])
    ensures SortedBy([y] + s, key)
  {
    var r := [y] + s;
    assert forall i :: 1 <= i < |r| ==> r[i] == s[i - 1];
  }

  /** An ordering of `s` by `key` that keeps every row (a permutation). */
  function SortBy<T>(s: seq<T>, key: T -> int): (r: seq<T>)
    ensures SortedBy(r, key)
    ensures multiset(r) == multiset(s)
    ensures |r| == |s|
  {
    if |s| == 0 then []
    else
      assert s == [s[0]] + s[1..];
      InsertBy(s[0], SortBy(s[1..], key), key)
  }

  /** `s` is in strictly increasing order. */
  ghost predicate StrictlyIncreasing(s: seq<int>) {
    forall i, j :: 0 <= i < j < |s| ==> s[i] < s[j]
  }

  /** Adds `x` to a strictly increasing sequence unless it is already there. */
  function InsertDistinct(x: int, s: seq<int>): (r: seq<int>)
    requires StrictlyIncreasing(s)
    ensures StrictlyIncreasing(r)
    ensures forall y :: y in r <==> y == x || y in s
  {
    if |s| == 0 then [x]
    else if x < s[0] then [x] + s
    else if x == s[0] then s
    else
      var rest := InsertDistinct(x, s[1..]);
      assert forall y :: y in s[1..] ==> y in s;
      assert forall k :: 0 <= k < |rest| ==> s[0] < rest[k] by {
        forall k | 0 <= k < |rest| ensures s[0] < rest[k] {
          assert rest[k] in rest;
          if rest[k] != x {
            var m :| 0 <= m < |s[1..]| && s[1..][m] == rest[k];
            assert s[m + 1] == rest[k];
          }
        }
      }
      var r := [s[0]] + rest;
      assert forall i :: 1 <= i < |r| ==> r[i] == rest[i - 1];
      r
  }

  /** The distinct values of `s` in increasing order, as `groupby` lists its keys. */
  function SortedDistinct(s: seq<int>): (r: seq<int>)
    ensures StrictlyIncreasing(r)
    ensures forall y :: y in r <==> y in s
  {
    if |s| == 0 then []
    else
      assert s == [s[0]] + s[1..];
      InsertDistinct(s[0], SortedDistinct(s[1..]))
  }

  /** The smallest element of a non-empty sequence. */
  function Min(s: seq<int>): (m: int)
    requires |s| > 0
    ensures m in s
    ensures forall i :: 0 <= i < |s| ==> m <= s[i]
  {
    if |s| == 1 then s[0]
    else
      var rest := Min(s[1..]);
      assert forall i :: 1 <= i < |s| ==> s[i] == s[1..][i - 1];
      if s[0] <= rest then s[0] else rest
  }

  /** The largest element of a non-empty sequence. */
  function Max(s: seq<int>): (m: int)
    requires |s| > 0
    ensures m in s
    ensures forall i :: 0 <= i < |s| ==> s[i] <= m
  {
    if |s| == 1 then s[0]
    else
      var rest := Max(s[1..]);
      assert forall i :: 1 <= i < |s| ==> s[i] == s[1..][i - 1];
      if s[0] >= rest then s[0] else rest
  }
}

=== FILE: strings.dfy ===
/** Character-level string helpers: ASCII case mapping and substring search,
    as used by Python's `str.lower`, `str.upper` and the `in` operator on strings. */
module Strings {

  function LowerChar(c: char): char {
    if 'A' <= c <= 'Z' then (c as int + 32) as char else c
  }

  function UpperChar(c: char): char {
    if 'a' <= c <= 'z' then (c as int - 32) as char else c
  }

  /** `s.lower()` */
  function Lower(s: string): (r: string)
    ensures |r| == |s|
  {
    seq(|s|, i requires 0 <= i < |s| => LowerChar(s[i]))
  }

  /** `s.upper()` */
  function Upper(s: string): (r: string)
    ensures |r| == |s|
  {
    seq(|s|, i requires 0 <= i < |s| => UpperChar(s[i]))
  }

  /** Lower-casing twice is lower-casing once, so a column name that was
      already lower-cased on load is found by the same search. */
  lemma LowerIdempotent(s: string)
    ensures Lower(Lower(s)) == Lower(s)
  {
  }

  /** `t` occurs in `s` starting at position `i`. */
  ghost predicate OccursAt(s: string, t: string, i: int) {
    0 <= i && i + |t| <= |s| && s[i..i + |t|] == t
  }

  /** Python's `t in s`: `t` is a substring of `s` (the empty string is in every string). */
  function Contains(s: string, t: string): (r: bool)
    ensures r <==> exists i :: OccursAt(s, t, i)
    decreases |s|
  {
    if |t| <= |s| && s[..|t|] == t then
      assert OccursAt(s, t, 0);
      true
    else if |s| <= |t| then
      assert forall i :: !OccursAt(s, t, i);
      false
    else
      var rest := Contains(s[1..], t);
      forall i | 1 <= i ensures OccursAt(s, t, i) <==> OccursAt(s[1..], t, i - 1) {
        OccursShift(s, t, i);
      }
      if rest then
        assert exists i :: OccursAt(s, t, i) by {
          var j :| OccursAt(s[1..], t, j);
          assert OccursAt(s, t, j + 1);
        }
        true
      else
        false
  }

  /** An occurrence at position `i >= 1` of `s` is one at `i - 1` of `s` without its first character. */
  lemma OccursShift(s: string, t: string, i: int)
    requires 1 <= i && |s| > 0
    ensures OccursAt(s, t, i) <==> OccursAt(s[1..], t, i - 1)
  {
    if i + |t| <= |s| {
      assert s[i..i + |t|] == s[1..][i - 1..i - 1 + |t|];
    }
  }
}
